=== FILE: README.md ===
# expo-sqlite-async, modelled in Dafny

`expo-sqlite-async` is a small promise layer over expo-sqlite's callback API
`exec(queries, readOnly, callback)`. This project models its three parts and
proves what they promise:

- **The callback adapter** (`doExecuteSqlAsync`, `executeSqlAsync`). Each call
  sends a batch of exactly one query, then turns the callback's
  `(error, resultSet[])` into a promise. The promise resolves with the first
  entry, rejects with an error, or never settles.
- **The query helpers** `q` and `q1`. `q` returns the rows. `q1` applies the
  cardinality rule: no row gives null, one row gives that row, and more than
  one row throws "Multiple records found when expecting only one".
- **Transaction bracketing** in `txn`/`rtxn` (and the `e`/`q`/`q1`
  wrappers). The bracket issues begin, runs the body, then issues either
  `commit`, or `rollback` and rethrows.
  - `SQLiteAsyncDatabase` guards the bracket with a mutex.
  - `ReentrantSQLiteDatabase` opens a database for every call and takes no lock.

The engine is a scripted oracle. A `World` holds the responses the engine
will give, in order, and the log of every call made so far. Each log entry
records the submission and the outcome the adapter made of its response. An
exhausted script means the engine never calls back. Everything is sequential
and every operation is a pure function from a `World` to an outcome and a
new `World`. A transaction body is a list of statements issued through the
handle plus a final step that turns their answers into the body's own
outcome.

Modules, one per layer:

| file | module | models |
|---|---|---|
| `sql_types.dfy` | `SqlTypes` | values, rows, result sets, queries, and promise outcomes (resolved, rejected, pending) |
| `callback.dfy` | `Callback` | the engine oracle, the callback normalisation, one-query submission |
| `async_sql_transaction.dfy` | `AsyncSQLTransaction` | the transaction handle and transaction bodies |
| `bracket.dfy` | `Bracketing` | the begin/body/commit-or-rollback bracket shared by both façades |
| `sqlite_async_database.dfy` | `SQLiteAsyncDatabase` | the mutex-guarded façade |
| `reentrant_sqlite_database.dfy` | `ReentrantSQLiteDatabase` | the open-per-call façade |

Whatever step of the bracket fails (begin, a body statement, the body itself
or commit), the code issues `rollback` and rethrows. If that rollback itself
fails, its error replaces the one being rethrown.

The code and its own commented-out tests disagree on one point, and the model
follows the code. `SQLiteAsyncDatabase.rtxn` issues
`begin immediate transaction`, the same as `txn`, while the commented-out
tests expect `begin transaction`.

## Model

| member | source | states |
|---|---|---|
| `Callback.Normalize` | expo-sqlite-async/AsyncSQLTransaction.ts:25-39 | The call rejects exactly when there is a top-level error or the first entry carries an `error` field. A top-level error wins even when results are also present. With no top-level error it resolves exactly when the first entry is a result set, and then with that entry. A missing or empty result array with no error never settles. |
| `Callback.NormalizeIgnoresLaterEntries` | expo-sqlite-async/AsyncSQLTransaction.ts:29-30 | Only the first entry of the result array matters; entries after it never change the outcome. |
| `Callback.Submit` | expo-sqlite-async/SQLiteAsyncDatabase.ts:166-186 | Exactly one call is made, as a batch of one query carrying the given sql, args and readOnly unchanged. It takes one engine response, and its outcome is the normalisation of that response. |
| `AsyncSQLTransaction.NewTransaction` | expo-sqlite-async/AsyncSQLTransaction.ts:5 | An omitted read-only flag means not read-only; a given flag is kept. |
| `AsyncSQLTransaction.DoExecuteSqlAsync` | expo-sqlite-async/AsyncSQLTransaction.ts:16-42 | One call is made on the handle's connection with one query holding sql and args unchanged and the given readOnly. The outcome is the normalised next response, and it is also what the log records for the call. The call takes exactly the engine's next response and nothing else changes in the script (`Consumed`). |
| `AsyncSQLTransaction.ExecuteSqlAsync` | expo-sqlite-async/AsyncSQLTransaction.ts:52-57 | The call is submitted with the handle's own read-only flag. Its outcome is the reply the log records, and that reply is the normalised engine response the call took, the next one in the script (`Consumed`). |
| `AsyncSQLTransaction.Q` | expo-sqlite-async/AsyncSQLTransaction.ts:67-73 | The call is submitted read-only whatever the handle's flag. It resolves exactly when the reply resolves, with exactly that result set's rows, and rejects with the reply's error. The reply is the normalised next engine response, which the call takes (`Consumed`). |
| `AsyncSQLTransaction.ExpectOne` | expo-sqlite-async/AsyncSQLTransaction.ts:88-93 | The rule always settles. It rejects, with the "Multiple records" error, exactly when there is more than one row; otherwise the row it returns (or null) lists exactly the given rows. |
| `AsyncSQLTransaction.Q1` | expo-sqlite-async/AsyncSQLTransaction.ts:83-94 | The call is submitted read-only. A resolved reply yields the cardinality rule applied to its rows, and the call rejects when the reply rejects. The reply is the normalised next engine response, which the call takes (`Consumed`). |
| `AsyncSQLTransaction.Perform` | expo-sqlite-async/AsyncSQLTransaction.ts:52-94 | One body operation goes to `executeSqlAsync`, `q` or `q1` on the handle. Exactly one call is made, submitted as that operation demands (the handle's flag for `executeSqlAsync`, read-only for `q` and `q1`). The operation's answer is what that operation makes of the reply, and the reply is the normalised next engine response, which the call takes (`Consumed`). |
| `AsyncSQLTransaction.RunStmts` | expo-sqlite-async/SQLiteAsyncDatabase.ts:76 | Running a body's statements issues a prefix of them in order, each submitted as its operation demands. Every issued statement except possibly the last answered. The run resolves exactly when all of them answered, and then with their answers. Otherwise the last one issued rejected (its error escapes) or never settled (the run never settles). |
| `AsyncSQLTransaction.RunBody` | expo-sqlite-async/SQLiteAsyncDatabase.ts:76 | `await callback(tx)`: the body's operations, then its final step on their answers. It takes the engine's responses one per call, in the order of its calls (`Consumed`). What it issues is stated by `BodyIssues` and how it ends by `BodyOutcome`. |
| `AsyncSQLTransaction.RunStmtsConsumes` | expo-sqlite-async/AsyncSQLTransaction.ts:21-41 | The body's statements are answered by the engine's responses in the order they were issued, one response per statement. |
| `AsyncSQLTransaction.BodyIssues` | expo-sqlite-async/SQLiteAsyncDatabase.ts:75-76 | A body issues a prefix of its statements, in order, each as a one-query batch on the handle's connection. On a read-only handle every one of them is read-only. |
| `AsyncSQLTransaction.BodyOutcome` | expo-sqlite-async/SQLiteAsyncDatabase.ts:76 | Once every statement has answered, the final step on those answers is the body's outcome. Otherwise the statement that failed decides: its rejection is the body's rejection, and if it never settles the body never settles. |
| `Bracketing.Control` | expo-sqlite-async/SQLiteAsyncDatabase.ts:161-165 | Begin, commit and rollback are each one call with one query, no args, and readOnly false on the database's handle. |
| `Bracketing.Recover` | expo-sqlite-async/SQLiteAsyncDatabase.ts:79-81 | The catch block issues exactly one rollback. If the rollback resolves, the original error is rethrown. If it rejects, the rollback's own error escapes instead. If it never settles, nothing settles. |
| `Bracketing.CommitWith` | expo-sqlite-async/SQLiteAsyncDatabase.ts:77-81 | After the body resolves with `v`, commit is issued. If commit resolves, `v` is returned with nothing else issued. If commit rejects, a rollback follows and the commit's error is rethrown (or the rollback's, if the rollback rejects). |
| `Bracketing.Bracket` | expo-sqlite-async/SQLiteAsyncDatabase.ts:73-81 | The `try`/`catch` of `txn` and `rtxn`: begin, the body, then commit, or rollback and rethrow. Its own contract says the log grows and the first call is the begin statement. Everything else is stated by the lemmas below, gathered in `BracketKeepsPromises`, and the link to the engine by `BracketConsumes`. The same bracket is at ReentrantSQLiteDatabase.ts:63-72. |
| `Bracketing.BracketBegins` | expo-sqlite-async/SQLiteAsyncDatabase.ts:73-81 | Every call of the bracket is a one-query batch on the same handle. A begin that rejects is followed by exactly one rollback and nothing else. The bracket then rethrows the begin's error if the rollback resolves, the rollback's own error if it rejects, and never settles if it never settles. A begin that never settles ends the bracket with nothing else issued. |
| `Bracketing.BracketCommits` | expo-sqlite-async/SQLiteAsyncDatabase.ts:74-78 | A bracket that resolves with `v` issued, in order: a begin that resolved, every body statement (each answered), then a commit that resolved; and the body's final step on those answers resolved with `v`. |
| `Bracketing.BracketRollsBack` | expo-sqlite-async/SQLiteAsyncDatabase.ts:73-81 | A bracket that rejects issued at least begin and ended with a rollback that settled. It rethrows the error of the call just before the rollback (begin, statement or commit) unless the rollback itself rejected, whose error then escapes. |
| `Bracketing.BracketBodyDecides` | expo-sqlite-async/SQLiteAsyncDatabase.ts:76-81 | After a resolved begin and a fully answered body, the body's final step decides. Resolved leads to a commit. A commit that resolves ends the bracket with that value. A commit that never settles ends it pending with nothing else issued. A commit that rejects is followed by one last rollback, and the commit's error is rethrown (or the rollback's, if it rejects). Rejected leads to one last rollback, and the body's error is rethrown (or the rollback's). Never settling leads to nothing further. |
| `Bracketing.BracketStmtFailureStops` | expo-sqlite-async/SQLiteAsyncDatabase.ts:76-81 | After a resolved begin, the first body statement that fails ends the body. If it rejects, exactly one rollback follows as the last call. The statement's error is rethrown when the rollback resolves, the rollback's error when it rejects, and nothing settles when it never settles. If the statement never settles, nothing further is issued and the bracket never settles. |
| `Bracketing.BracketStmtsInOrder` | expo-sqlite-async/SQLiteAsyncDatabase.ts:75-76 | After a resolved begin, once the first `k` body statements have answered, the next call is statement `k`, submitted as its operation demands on the bracket's handle. |
| `Bracketing.BracketReadOnlyWrites` | expo-sqlite-async/SQLiteAsyncDatabase.ts:94-100 | With a read-only handle, every call after begin that is not read-only is a commit or a rollback. |
| `Bracketing.BracketConsumes` | expo-sqlite-async/SQLiteAsyncDatabase.ts:166-186 | A bracket takes the engine's responses one per call, in the order of its calls: begin, the body's statements, then commit and rollback. |
| `Bracketing.BracketKeepsPromises` | expo-sqlite-async/SQLiteAsyncDatabase.ts:73-81 | Every bracket keeps all of the promises above at once (`Bracketed`), with a handle built from the flag it was given. For each failure point (begin, a statement, the final step, commit), the next call is a single rollback, it is the last call, and the outcome is what the catch block makes of the rollback's reply. Its calls take the engine's responses one by one, in order, and each logged reply is the normalised response it took (`Consumed`). |
| `Bracketing.OneStatementBracketed` | expo-sqlite-async/SQLiteAsyncDatabase.ts:113-115 | A bracket around one statement lives by `OneStatement`, which covers every path. Begin comes first. A failed begin is followed by one last rollback. Otherwise the statement is sent. A failed statement is followed by one last rollback, with its error rethrown unless the rollback rejects. Otherwise the final step on its result set decides between a commit and that last rollback. A commit that never settles ends the bracket pending, and one that rejects is followed by the last rollback. A resolution means exactly three calls with a resolved commit. |
| `Bracketing.OneStatementMap` | expo-sqlite-async/SQLiteAsyncDatabase.ts:127-130 | Taking `rs.rows` after the bracket settles is the same as a final step that takes the rows. |
| `SQLiteAsyncDatabase.NewAsyncDb` | expo-sqlite-async/SQLiteAsyncDatabase.ts:25-28 | A new façade wraps the given handle with a free mutex. |
| `SQLiteAsyncDatabase.ExecuteSqlAsync` | expo-sqlite-async/SQLiteAsyncDatabase.ts:161-187 | Exactly one call is made on the façade's handle, with sql, args and readOnly unchanged. Its outcome is the normalised next response, and the mutex is neither taken nor consulted. `args` defaults to no arguments and `readOnly` to false. The call takes exactly the engine's next response and nothing else changes in the script (`Consumed`). |
| `SQLiteAsyncDatabase.Guarded` | expo-sqlite-async/SQLiteAsyncDatabase.ts:70-85 | With the mutex held, a transaction waits and issues nothing. With it free, the bracket runs on the façade's handle, and the mutex is free again exactly when the bracket settles, whichever way. |
| `SQLiteAsyncDatabase.Txn` | expo-sqlite-async/SQLiteAsyncDatabase.ts:70-85 | With a free mutex, `txn` keeps every bracket promise (`Bracketed`) with `begin immediate transaction` and a handle that is not read-only. So every failure is followed by one last rollback, and the outcome is what the catch block makes of its reply. Each reply is the normalised engine response the call took, in order (`Consumed`), so the outcome is fixed by the engine. The mutex is released exactly when the transaction settles, and the handle is kept. With a held mutex it waits, issues nothing and leaves the mutex held. |
| `SQLiteAsyncDatabase.Rtxn` | expo-sqlite-async/SQLiteAsyncDatabase.ts:90-105 | The same as `Txn`, with the same `begin immediate transaction` but a read-only handle; its replies are the engine's responses in order. |
| `SQLiteAsyncDatabase.E` | expo-sqlite-async/SQLiteAsyncDatabase.ts:113-115 | `e` is a one-statement bracket (`OneStatement`) with `begin immediate transaction` whose statement is submitted not read-only, on the façade's own handle. A commit that resolves returns the statement's result set. Every failure is followed by one last rollback and rethrown as the catch block decides. The replies are the engine's responses in order. With a held mutex it waits, issues nothing and leaves the façade unchanged. |
| `SQLiteAsyncDatabase.Q` | expo-sqlite-async/SQLiteAsyncDatabase.ts:123-131 | `q` is a one-statement bracket whose statement is submitted read-only, on the façade's own handle. A commit that resolves returns exactly that result set's rows. Every failure is followed by one last rollback and rethrown as the catch block decides. The replies are the engine's responses in order. With a held mutex it waits, issues nothing and leaves the façade unchanged. |
| `SQLiteAsyncDatabase.Q1` | expo-sqlite-async/SQLiteAsyncDatabase.ts:139-152 | `q1` applies the cardinality rule inside the bracket, on the façade's own handle. More than one row leads to a rollback, after which the "Multiple records" error is rethrown, or replaced by the rollback's error if the rollback fails. No row or one row leads to commit and null or that row. The replies are the engine's responses in order. With a held mutex it waits and leaves the façade unchanged. |
| `SQLiteAsyncDatabase.StalledTxnBlocksLaterTxns` | expo-sqlite-async/SQLiteAsyncDatabase.ts:71-84 | While a transaction never settles its mutex stays held, so every later `txn` or `rtxn` waits without issuing anything. |
| `SQLiteAsyncDatabase.SettledTxnFreesMutex` | expo-sqlite-async/SQLiteAsyncDatabase.ts:82-84 | Once a transaction settles, either way, the mutex is free. The next transaction then issues its begin right after the earlier one's last call. |
| `SQLiteAsyncDatabase.QScenario` | expo-sqlite-async/SQLiteAsyncDatabase.ts:123-131 | On an engine that answers begin, the statement (with `rows`) and commit, `q` issues exactly: begin immediate, the statement read-only, commit. It returns exactly `rows` and frees the mutex. |
| `SQLiteAsyncDatabase.QFailScenario` | expo-sqlite-async/SQLiteAsyncDatabase.ts:93-101 | When the statement of `q` fails with `e`, exactly three calls are made, the last a rollback, and `e` escapes. |
| `SQLiteAsyncDatabase.Q1Scenario` | expo-sqlite-async/SQLiteAsyncDatabase.ts:143-151 | When the statement answers with `rows`, `q1` returns the cardinality rule's result for them. The third call is commit for at most one row and rollback otherwise. |
| `ReentrantSQLiteDatabase.NewReentrant` | expo-sqlite-async/ReentrantSQLiteDatabase.ts:24 | The opener's first call settles as the first of the given opens; with none it never settles. |
| `ReentrantSQLiteDatabase.OpenThenBracket` | expo-sqlite-async/ReentrantSQLiteDatabase.ts:62-63 | The open comes before the `try`. An open that never settles or rejects issues nothing. Its error escapes without a rollback. After an open that resolves, the bracket's replies are the engine's responses in order. |
| `ReentrantSQLiteDatabase.Txn` | expo-sqlite-async/ReentrantSQLiteDatabase.ts:61-73 | Each `txn` uses one open. On the opened database's handle it keeps every bracket promise (`Bracketed`), with `begin exclusive transaction` and a handle that is not read-only. So every failure after the open is followed by one last rollback, and the outcome is what the catch block makes of its reply. Each reply is the normalised engine response the call took, in order (`Consumed`). |
| `ReentrantSQLiteDatabase.Rtxn` | expo-sqlite-async/ReentrantSQLiteDatabase.ts:78-90 | The same as `Txn`, with `begin transaction` and a read-only handle; its replies are the engine's responses in order. |
| `ReentrantSQLiteDatabase.E` | expo-sqlite-async/ReentrantSQLiteDatabase.ts:98-100 | `e` is a one-statement bracket on the opened handle, with `begin exclusive transaction` and its statement submitted not read-only. Every failure after the open is followed by one last rollback. A failed open escapes untouched. The replies are the engine's responses in order. |
| `ReentrantSQLiteDatabase.Q` | expo-sqlite-async/ReentrantSQLiteDatabase.ts:108-116 | `q` is a one-statement bracket with `begin transaction` and its statement submitted read-only, returning exactly the rows. Every failure is followed by one last rollback. The replies are the engine's responses in order. |
| `ReentrantSQLiteDatabase.Q1` | expo-sqlite-async/ReentrantSQLiteDatabase.ts:124-137 | `q1` applies the cardinality rule inside the `begin transaction` bracket. More than one row is rolled back, then the error is rethrown, or replaced by the rollback's error if the rollback fails. The replies are the engine's responses in order. |
| `ReentrantSQLiteDatabase.ExecuteSqlAsync` | expo-sqlite-async/ReentrantSQLiteDatabase.ts:145-152 | One open, then exactly one call on the opened handle with sql, args and readOnly unchanged, and no begin or commit around it. A failed open escapes with nothing issued. `args` defaults to no arguments and `readOnly` to false. After an open that resolves, the call takes exactly the engine's next response (`Consumed`). |
| `ReentrantSQLiteDatabase.TxnIgnoresOpenedMutex` | expo-sqlite-async/ReentrantSQLiteDatabase.ts:62-67 | The opened database's mutex plays no part: `txn` and `rtxn` do the same whether or not it is held. |
| `ReentrantSQLiteDatabase.StalledTxnDoesNotBlock` | expo-sqlite-async/ReentrantSQLiteDatabase.ts:61-64 | No transaction waits for another. Even after one that never settles, the next whose open resolves issues its own begin straight away. |
| `ReentrantSQLiteDatabase.EScenario` | expo-sqlite-async/__tests__/ReentrantSQLiteDatabase.test.ts:72-95 | On an engine that answers three calls with empty result sets, `e` issues exactly: begin exclusive, the statement not read-only, commit. It resolves with the statement's empty result set. |

## Left out

- `transaction`/`readTransaction` on both façades, and `SQLiteAsyncDatabase.exec`: they forward callbacks to the WebSQL API unchanged and hold no logic of their own.
- `enableForeignKeys`: it issues a pragma without awaiting it.
- `openDatabaseAsync.ts`, `index.tsx` and `AsyncSQLiteDatabase.ts`: opening the native database, re-exports and type declarations. The opener `openDbFn` is an oracle, a list of the outcomes its successive calls settle to.
- The SQL semantics of the engine: statements are opaque strings and the engine is an oracle over them.
- `console.error` on a per-statement error: logging only.
- Concurrency and the fairness of `async-mutex`: execution is sequential, so the mutex is a boolean. It can only be held when a new call arrives if an earlier transaction never settled.
- Bodies are first-order: a body's statements are fixed before it runs, so a statement cannot depend on an earlier statement's result, and a body cannot catch a statement's error. Both are possible in the source's arbitrary async callbacks.
- Bodies await each statement before the next. Statements that are not awaited, or that run side by side (`Promise.all`), are not modelled, and neither are statements a body issues after it has settled.
- A body that calls the façade again is not modelled. On `SQLiteAsyncDatabase` a nested `txn` or `rtxn` would wait forever on the mutex its own caller holds.
- `Bracketing.BracketRollsBack`: states only that a rejected bracket ended in a settled rollback. The converse is stated per failure point instead, by `BracketBegins`, `BracketBodyDecides` and `BracketStmtFailureStops`: after that failure a rollback is the last call and the outcome is what the catch block makes of it. A single converse over the whole log cannot hold, because a body may issue a `rollback` statement of its own that looks the same in the log.
- `version`, copied from the wrapped handle in the `SQLiteAsyncDatabase` constructor: a plain field with no behaviour.
- `ReentrantSQLiteDatabase.NewReentrant`: whether `openDbFn` hands out a fresh database on each call is up to the caller. The model allows any database, including the same one again.

=== FILE: async_sql_transaction.dfy ===
/** `AsyncSQLTransaction`: the handle a transaction body receives. Every
    operation sends a one-query batch through the callback adapter on the
    handle's connection. A body is modelled as a list of handle operations run
    in order, followed by a final step that turns their answers into the
    body's own outcome. */
module AsyncSQLTransaction {
  import opened SqlTypes
  import opened Callback

  /** The error `q1` throws when more than one row comes back. */
  const MultipleRecords := Error("Multiple records found when expecting only one")

  datatype Transaction = Transaction(conn: ConnId, readOnly: bool)

  /** `new AsyncSQLTransaction(db, readOnly?)`: an omitted flag means not read-only. */
  function NewTransaction(conn: ConnId, readOnly: Option<bool>): (tx: Transaction)
    ensures tx.conn == conn
    ensures tx.readOnly <==> readOnly == Some(true)
  {
    Transaction(conn, match readOnly case Some(b) => b case None => false)
  }

  /** `doExecuteSqlAsync`: one call to `exec` with a batch of exactly one
      query that carries `sql` and `args` as given, answered by the engine's
      next response. */
  function DoExecuteSqlAsync(tx: Transaction, sql: string, args: seq<Value>, readOnly: bool, w: World)
    : (r: Run<ResultSet>)
    ensures Extends(w, r.world)
    ensures |r.world.log| == |w.log| + 1
    ensures Last(r.world.log).sub == Submission(tx.conn, [Query(sql, args)], readOnly)
    ensures |Last(r.world.log).sub.queries| == 1
    ensures Last(r.world.log).reply == r.outcome
    ensures r.outcome == Normalize(NextResponse(w))
    ensures Consumed(w, r.world)
  {
    SubmitConsumes(w, tx.conn, sql, args, readOnly);
    Submit(w, tx.conn, sql, args, readOnly)
  }

  /** `executeSqlAsync`: forwards the handle's own read-only flag. */
  function ExecuteSqlAsync(tx: Transaction, sql: string, args: seq<Value>, w: World): (r: Run<ResultSet>)
    ensures Extends(w, r.world)
    ensures |r.world.log| == |w.log| + 1
    ensures Last(r.world.log).sub == Submission(tx.conn, [Query(sql, args)], tx.readOnly)
    ensures r.outcome == Last(r.world.log).reply
    ensures Consumed(w, r.world)
  {
    DoExecuteSqlAsync(tx, sql, args, tx.readOnly, w)
  }

  /** `q`: always submitted read-only, whatever the handle's flag, and
      resolves with exactly the rows of the result set. */
  function Q(tx: Transaction, sql: string, args: seq<Value>, w: World): (r: Run<seq<Row>>)
    ensures Extends(w, r.world)
    ensures |r.world.log| == |w.log| + 1
    ensures Last(r.world.log).sub == Submission(tx.conn, [Query(sql, args)], true)
    ensures var reply := Last(r.world.log).reply;
            && (reply.Resolved? <==> r.outcome.Resolved?)
            && (reply.Resolved? ==> r.outcome.value == reply.value.rows)
            && (reply.Rejected? <==> r.outcome.Rejected?)
            && (reply.Rejected? ==> r.outcome.error == reply.error)
    ensures Consumed(w, r.world)
  {
    var e := DoExecuteSqlAsync(tx, sql, args, true, w);
    Run(e.outcome.Map((rs: ResultSet) => rs.rows), e.world)
  }

  /** The rows an answer of `ExpectOne` stands for. */
  function Listed(row: Option<Row>): seq<Row> {
    match row
    case None => []
    case Some(x) => [x]
  }

  /** The cardinality rule of `q1`: no row gives null, one row gives that row,
      more than one throws. */
  function ExpectOne(rows: seq<Row>): (r: Outcome<Option<Row>>)
    ensures r.Settled()
    ensures r.Rejected? <==> |rows| > 1
    ensures r.Rejected? ==> r.error == MultipleRecords
    ensures r.Resolved? ==> Listed(r.value) == rows
  {
    if |rows| > 1 then
      Rejected(MultipleRecords)
    else if |rows| == 0 then
      Resolved(None)
    else
      Resolved(Some(rows[0]))
  }

  /** `q1`: submitted read-only; a resolved result set goes through the
      cardinality rule, anything else passes through. */
  function Q1(tx: Transaction, sql: string, args: seq<Value>, w: World): (r: Run<Option<Row>>)
    ensures Extends(w, r.world)
    ensures |r.world.log| == |w.log| + 1
    ensures Last(r.world.log).sub == Submission(tx.conn, [Query(sql, args)], true)
    ensures var reply := Last(r.world.log).reply;
            && (reply.Resolved? ==> r.outcome == ExpectOne(reply.value.rows))
            && (reply.Rejected? <==> r.outcome.Rejected? && !reply.Resolved?)
            && (reply.Rejected? ==> r.outcome.error == reply.error)
            && (reply.Pending? <==> r.outcome.Pending?)
    ensures Consumed(w, r.world)
  {
    var e := DoExecuteSqlAsync(tx, sql, args, true, w);
    Run(e.outcome.Then((rs: ResultSet) => ExpectOne(rs.rows)), e.world)
  }

  /** One awaited handle operation inside a transaction body. */
  datatype Stmt =
    | ExecuteSql(sql: string, args: seq<Value>)  // tx.executeSqlAsync
    | QueryRows(sql: string, args: seq<Value>)   // tx.q
    | QueryRow(sql: string, args: seq<Value>)    // tx.q1

  /** What an operation resolved with. */
  datatype Answer = ResultOf(resultSet: ResultSet) | RowsOf(rows: seq<Row>) | RowOf(row: Option<Row>)

  /** A transaction body: its operations in order, then the body's own result
      computed from their answers (it may also throw or never settle). */
  datatype Body<T> = Body(stmts: seq<Stmt>, finish: seq<Answer> -> Outcome<T>)

  /** The call the engine sees for one operation: `executeSqlAsync` carries
      the handle's flag, `q` and `q1` are always read-only. */
  function SubmissionFor(tx: Transaction, s: Stmt): Submission {
    Submission(tx.conn, [Query(s.sql, s.args)], if s.ExecuteSql? then tx.readOnly else true)
  }

  /** What an operation makes of a resolved result set. */
  function AnswerFor(s: Stmt, rs: ResultSet): Outcome<Answer> {
    match s
    case ExecuteSql(_, _) => Resolved(ResultOf(rs))
    case QueryRows(_, _) => Resolved(RowsOf(rs.rows))
    case QueryRow(_, _) => ExpectOne(rs.rows).Map((row: Option<Row>) => RowOf(row))
  }

  /** What an operation makes of the engine's reply. */
  function StepOutcome(s: Stmt, reply: Outcome<ResultSet>): Outcome<Answer> {
    reply.Then((rs: ResultSet) => AnswerFor(s, rs))
  }

  /** Runs one operation through the handle. */
  function Perform(tx: Transaction, s: Stmt, w: World): (r: Run<Answer>)
    ensures Extends(w, r.world)
    ensures |r.world.log| == |w.log| + 1
    ensures Last(r.world.log).sub == SubmissionFor(tx, s)
    ensures r.outcome == StepOutcome(s, Last(r.world.log).reply)
    ensures Consumed(w, r.world)
  {
    match s
    case ExecuteSql(sql, args) =>
      var e := ExecuteSqlAsync(tx, sql, args, w);
      Run(e.outcome.Map((rs: ResultSet) => ResultOf(rs)), e.world)
    case QueryRows(sql, args) =>
      var e := Q(tx, sql, args, w);
      Run(e.outcome.Map((rows: seq<Row>) => RowsOf(rows)), e.world)
    case QueryRow(sql, args) =>
      var e := Q1(tx, sql, args, w);
      Run(e.outcome.Map((row: Option<Row>) => RowOf(row)), e.world)
  }

  /** `events` are the submissions of a prefix of `stmts`, in order. */
  ghost predicate IssuedPrefix(tx: Transaction, stmts: seq<Stmt>, events: seq<Event>) {
    && |events| <= |stmts|
    && forall i :: 0 <= i < |events| ==> events[i].sub == SubmissionFor(tx, stmts[i])
  }

  /** Every one of `stmts` was issued and came back with an answer. */
  predicate AllAnswered(stmts: seq<Stmt>, events: seq<Event>) {
    && |events| == |stmts|
    && forall i :: 0 <= i < |events| ==> StepOutcome(stmts[i], events[i].reply).Resolved?
  }

  /** The answers the operations resolved with, in order. */
  function AnswersOf(stmts: seq<Stmt>, events: seq<Event>): (r: seq<Answer>)
    requires AllAnswered(stmts, events)
    ensures |r| == |stmts|
    ensures forall i :: 0 <= i < |r| ==> StepOutcome(stmts[i], events[i].reply) == Resolved(r[i])
  {
    seq(|events|, i requires 0 <= i < |events| => StepOutcome(stmts[i], events[i].reply).value)
  }

  /** What running `stmts` in order did, as seen in the calls it added: a
      prefix of them was issued, every one but the last issued succeeded, and
      the outcome is either all the answers or the last issued one's failure. */
  ghost predicate StmtsRan(tx: Transaction, stmts: seq<Stmt>, added: seq<Event>, o: Outcome<seq<Answer>>) {
    && IssuedPrefix(tx, stmts, added)
    && (forall i :: 0 <= i < |added| - 1 ==> StepOutcome(stmts[i], added[i].reply).Resolved?)
    && (o.Resolved? ==> AllAnswered(stmts, added) && o.value == AnswersOf(stmts, added))
    && (!o.Resolved? ==>
          && 0 < |added|
          && var failed := StepOutcome(stmts[|added| - 1], Last(added).reply);
             && !failed.Resolved?
             && (o.Pending? <==> failed.Pending?)
             && (o.Rejected? ==> o.error == failed.error))
  }

  /** Awaits each operation in turn; the first one that rejects or never
      settles ends the run with that outcome, so every operation before the
      last one issued succeeded. */
  function RunStmts(tx: Transaction, stmts: seq<Stmt>, w: World): (r: Run<seq<Answer>>)
    ensures Extends(w, r.world)
    ensures StmtsRan(tx, stmts, Added(w, r.world), r.outcome)
    decreases |stmts|
  {
    if |stmts| == 0 then
      Run(Resolved([]), w)
    else
      var first := Perform(tx, stmts[0], w);
      assert Added(w, first.world) == [Last(first.world.log)];
      match first.outcome
      case Pending => Run(Pending, first.world)
      case Rejected(e) => Run(Rejected(e), first.world)
      case Resolved(a) =>
        var rest := RunStmts(tx, stmts[1..], first.world);
        AddedSplit(w, first.world, rest.world);
        StmtsRanCons(tx, stmts, Last(first.world.log), Added(first.world, rest.world), a, rest.outcome);
        Run(Prepend(a, rest.outcome), rest.world)
  }

  /** One successful operation in front of a run of the rest. */
  lemma StmtsRanCons(tx: Transaction, stmts: seq<Stmt>, e: Event, tail: seq<Event>, a: Answer, o: Outcome<seq<Answer>>)
    requires 0 < |stmts|
    requires e.sub == SubmissionFor(tx, stmts[0])
    requires StepOutcome(stmts[0], e.reply) == Resolved(a)
    requires StmtsRan(tx, stmts[1..], tail, o)
    ensures StmtsRan(tx, stmts, [e] + tail, Prepend(a, o))
  {
    var events := [e] + tail;
    forall i | 1 <= i < |events|
      ensures events[i] == tail[i - 1] && stmts[i] == stmts[1..][i - 1]
    {
    }
    if o.Resolved? {
      AnswersOfCons(stmts, e, tail, a);
    }
  }

  lemma AnswersOfCons(stmts: seq<Stmt>, e: Event, tail: seq<Event>, a: Answer)
    requires 0 < |stmts|
    requires StepOutcome(stmts[0], e.reply) == Resolved(a)
    requires AllAnswered(stmts[1..], tail)
    ensures AllAnswered(stmts, [e] + tail)
    ensures AnswersOf(stmts, [e] + tail) == [a] + AnswersOf(stmts[1..], tail)
  {
    var events := [e] + tail;
    forall i | 1 <= i < |events|
      ensures StepOutcome(stmts[i], events[i].reply) == StepOutcome(stmts[1..][i - 1], tail[i - 1].reply)
    {
    }
  }

  function Prepend(a: Answer, o: Outcome<seq<Answer>>): (r: Outcome<seq<Answer>>)
    ensures r.Resolved? <==> o.Resolved?
    ensures r.Resolved? ==> r.value == [a] + o.value
    ensures r.Pending? <==> o.Pending?
    ensures r.Rejected? ==> r.error == o.error
  {
    o.Map((answers: seq<Answer>) => [a] + answers)
  }

  /** Runs a body against a handle: its operations, then its final step.
      What it issues and how it ends are stated by `BodyIssues` and
      `BodyOutcome`. */
  function RunBody<T>(tx: Transaction, body: Body<T>, w: World): (r: Run<T>)
    ensures Extends(w, r.world)
    ensures Consumed(w, r.world)
  {
    RunStmtsConsumes(tx, body.stmts, w);
    var s := RunStmts(tx, body.stmts, w);
    match s.outcome
    case Resolved(answers) => Run(body.finish(answers), s.world)
    case Rejected(e) => Run(Rejected(e), s.world)
    case Pending => Run(Pending, s.world)
  }

  /** A body issues a prefix of its operations, in order, each as a batch of
      one query on the handle's connection; on a read-only handle every one of
      them is read-only. */
  lemma BodyIssues<T>(tx: Transaction, body: Body<T>, w: World)
    ensures var r := RunBody(tx, body, w);
            var added := Added(w, r.world);
            && IssuedPrefix(tx, body.stmts, added)
            && SingleQueriesOn(added, tx.conn)
            && (tx.readOnly ==> forall i :: 0 <= i < |added| ==> added[i].sub.readOnly)
  {
  }

  /** Once every operation has answered, the body's final step alone decides
      its outcome; before that, the operation that failed or stalled ended
      the body, and the body did not resolve. */
  lemma BodyOutcome<T>(tx: Transaction, body: Body<T>, w: World)
    ensures var r := RunBody(tx, body, w);
            var added := Added(w, r.world);
            && (AllAnswered(body.stmts, added) ==> r.outcome == body.finish(AnswersOf(body.stmts, added)))
            && (forall i :: 0 <= i < |added| - 1 ==> StepOutcome(body.stmts[i], added[i].reply).Resolved?)
            && (!AllAnswered(body.stmts, added) ==>
                  && 0 < |added|
                  && var failed := StepOutcome(body.stmts[|added| - 1], Last(added).reply);
                     && !failed.Resolved?
                     && (r.outcome.Pending? <==> failed.Pending?)
                     && (r.outcome.Rejected? ==> r.outcome.error == failed.error))
            && (0 < |added| && Last(added).reply.Rejected? ==> r.outcome == Rejected(Last(added).reply.error))
  {
  }

  /** The operations of a body are answered by the engine's responses in
      the order they were issued. */
  lemma {:induction false} RunStmtsConsumes(tx: Transaction, stmts: seq<Stmt>, w: World)
    ensures Consumed(w, RunStmts(tx, stmts, w).world)
    decreases |stmts|
  {
    if |stmts| > 0 {
      var first := Perform(tx, stmts[0], w);
      if first.outcome.Resolved? {
        RunStmtsConsumes(tx, stmts[1..], first.world);
        ConsumedTrans(w, first.world, RunStmts(tx, stmts[1..], first.world).world);
      }
    }
  }
}

=== FILE: bracket.dfy ===
/** The `try`/`catch` bracket both façades put around a transaction body:
    begin, the body on a fresh handle, commit; on any rejection, rollback
    and rethrow. Each façade supplies its own begin statement and handle
    flag; the bracket statements go through the database's own
    `executeSqlAsync` with its default arguments. */
module Bracketing {
  import opened SqlTypes
  import opened Callback
  import opened AsyncSQLTransaction

  const Commit := "commit"
  const Rollback := "rollback"

  /** How `executeSqlAsync(sql)` sends a bracket statement: default `args`
      of `[]` and default `readOnly` of false. */
  function ControlSub(conn: ConnId, sql: string): Submission {
    Submission(conn, [Query(sql, [])], false)
  }

  /** How `executeSqlAsync(sql)` is called for begin, commit and rollback. */
  function Control(conn: ConnId, sql: string, w: World): (r: Run<ResultSet>)
    ensures Extends(w, r.world)
    ensures Added(w, r.world) == [Event(ControlSub(conn, sql), r.outcome)]
  {
    Submit(w, conn, sql, [], false)
  }

  /** The `catch` block: issue `rollback`, then rethrow `cause`. If the
      rollback itself rejects, that rejection escapes instead. */
  function Recover<T>(conn: ConnId, cause: Error, w: World): (r: Run<T>)
    ensures Extends(w, r.world)
    ensures SingleQueriesOn(Added(w, r.world), conn)
    ensures |r.world.log| == |w.log| + 1
    ensures var log := r.world.log;
            && log == w.log + [Last(log)]
            && Last(log).sub == ControlSub(conn, Rollback)
            && (Last(log).reply.Resolved? ==> r.outcome == Rejected(cause))
            && (Last(log).reply.Rejected? ==> r.outcome == Rejected(Last(log).reply.error))
            && (Last(log).reply.Pending? <==> r.outcome.Pending?)
  {
    var rb := Control(conn, Rollback, w);
    match rb.outcome
    case Resolved(_) => Run(Rejected(cause), rb.world)
    case Rejected(e) => Run(Rejected(e), rb.world)
    case Pending => Run(Pending, rb.world)
  }

  /** The end of the `try` block once the body resolved with `v`: commit and
      return `v`; a commit that rejects goes to the `catch` block. */
  function CommitWith<T>(conn: ConnId, v: T, w: World): (r: Run<T>)
    ensures Extends(w, r.world)
    ensures SingleQueriesOn(Added(w, r.world), conn)
    ensures |w.log| < |r.world.log|
    ensures var log := r.world.log;
            var commit := log[|w.log|];
            && commit.sub == ControlSub(conn, Commit)
            && (commit.reply.Resolved? ==> log == w.log + [commit] && r.outcome == Resolved(v))
            && (commit.reply.Pending? ==> log == w.log + [commit] && r.outcome.Pending?)
            && (commit.reply.Rejected? ==>
                  && log == w.log + [commit, Last(log)]
                  && Last(log).sub == ControlSub(conn, Rollback)
                  && (Last(log).reply.Resolved? ==> r.outcome == Rejected(commit.reply.error))
                  && (Last(log).reply.Rejected? ==> r.outcome == Rejected(Last(log).reply.error))
                  && (Last(log).reply.Pending? <==> r.outcome.Pending?))
  {
    var committed := Control(conn, Commit, w);
    match committed.outcome
    case Pending => Run(Pending, committed.world)
    case Resolved(_) => Run(Resolved(v), committed.world)
    case Rejected(e) => Recover(conn, e, committed.world)
  }

  /** The rest of the bracket once the body has run: commit after a
      resolution, roll back after a rejection, wait forever otherwise. */
  function AfterBody<T>(conn: ConnId, body: Outcome<T>, w: World): (r: Run<T>)
    ensures Extends(w, r.world)
    ensures body.Pending? ==> r == Run(Pending, w)
  {
    match body
    case Pending => Run(Pending, w)
    case Rejected(e) => Recover(conn, e, w)
    case Resolved(v) => CommitWith(conn, v, w)
  }

  /** The `try`/`catch` of `txn` and `rtxn` on handle `conn`: begin, run the
      body with a handle built from `flag`, commit; anything that rejects on
      the way (begin, a body statement, the body itself, commit) leads to the
      rollback path. What it issues and returns is stated by the lemmas
      below. */
  function Bracket<T>(conn: ConnId, beginSql: string, flag: Option<bool>, body: Body<T>, w: World): (r: Run<T>)
    ensures Extends(w, r.world)
    ensures |w.log| < |r.world.log| && r.world.log[|w.log|].sub == ControlSub(conn, beginSql)
  {
    var begun := Control(conn, beginSql, w);
    match begun.outcome
    case Pending => Run(Pending, begun.world)
    case Rejected(e) => Recover(conn, e, begun.world)
    case Resolved(_) => Begun(conn, flag, body, begun.world)
  }

  /** The `try` block after a successful begin: the body on a fresh handle,
      then commit or rollback. */
  function Begun<T>(conn: ConnId, flag: Option<bool>, body: Body<T>, w: World): (r: Run<T>)
    ensures Extends(w, r.world)
  {
    var b := RunBody(NewTransaction(conn, flag), body, w);
    AfterBody(conn, b.outcome, b.world)
  }

  lemma BegunUnfolds<T>(conn: ConnId, flag: Option<bool>, body: Body<T>, w: World)
    ensures var b := RunBody(NewTransaction(conn, flag), body, w);
            Begun(conn, flag, body, w) == AfterBody(conn, b.outcome, b.world)
  {
  }

  /** Every call a begun bracket makes goes to handle `conn` as a batch of
      one query. */
  lemma BegunSingleQueries<T>(conn: ConnId, flag: Option<bool>, body: Body<T>, w: World)
    ensures var r := Begun(conn, flag, body, w);
            SingleQueriesOn(Added(w, r.world), conn)
  {
    var b := RunBody(NewTransaction(conn, flag), body, w);
    var r := Begun(conn, flag, body, w);
    BodyIssues(NewTransaction(conn, flag), body, w);
    AddedSplit(w, b.world, r.world);
    SingleQueriesOnConcat(Added(w, b.world), Added(b.world, r.world), conn);
  }

  /** Every call a bracket makes goes to handle `conn` as a batch of one
      query. A begin that rejects is still followed by a rollback, and then
      the body never runs; a begin that never settles leaves everything else
      undone. */
  lemma BracketBegins<T>(conn: ConnId, beginSql: string, flag: Option<bool>, body: Body<T>, w: World)
    ensures var r := Bracket(conn, beginSql, flag, body, w);
            var log := r.world.log;
            && SingleQueriesOn(Added(w, r.world), conn)
            && (log[|w.log|].reply.Rejected? ==>
                  RolledBackAt(conn, Added(w, r.world), 1, log[|w.log|].reply.error, r.outcome))
            && (log[|w.log|].reply.Pending? ==> |log| == |w.log| + 1 && r.outcome.Pending?)
  {
    var r := Bracket(conn, beginSql, flag, body, w);
    var begun := Control(conn, beginSql, w);
    AddedSplit(w, begun.world, r.world);
    if begun.outcome.Resolved? {
      BegunSingleQueries(conn, flag, body, begun.world);
    }
    SingleQueriesOnConcat(Added(w, begun.world), Added(begun.world, r.world), conn);
  }

  /** What the `catch` block makes of `cause` once its rollback replied: the
      cause is rethrown after a rollback that resolved, the rollback's own
      error escapes when it rejected, and nothing settles when it never did. */
  function Recovered<T>(cause: Error, rollback: Outcome<ResultSet>): Outcome<T> {
    match rollback
    case Resolved(_) => Rejected(cause)
    case Rejected(e) => Rejected(e)
    case Pending => Pending
  }

  /** After a failure with `cause`, call `j` of `events` is a rollback and the
      last call, and the outcome is what the `catch` block makes of it. */
  ghost predicate RolledBackAt<T>(conn: ConnId, events: seq<Event>, j: nat, cause: Error, o: Outcome<T>) {
    && |events| == j + 1
    && events[j].sub == ControlSub(conn, Rollback)
    && o == Recovered(cause, events[j].reply)
  }

  /** What a bracket that committed `v` issued after its begin: every body
      statement in order, each answered, the body's final step resolving with
      `v` on those answers, then a commit that resolved. */
  ghost predicate CommittedAfterBegin<T>(conn: ConnId, tx: Transaction, body: Body<T>, rest: seq<Event>, v: T) {
    var n := |body.stmts|;
    && |rest| == n + 1
    && IssuedPrefix(tx, body.stmts, rest[..n])
    && AllAnswered(body.stmts, rest[..n])
    && body.finish(AnswersOf(body.stmts, rest[..n])) == Resolved(v)
    && rest[n].sub == ControlSub(conn, Commit)
    && rest[n].reply.Resolved?
  }

  /** A committed bracket: a begin that resolved, then the above. */
  ghost predicate Committed<T>(conn: ConnId, beginSql: string, tx: Transaction, body: Body<T>, added: seq<Event>, v: T) {
    && 0 < |added|
    && added[0].sub == ControlSub(conn, beginSql)
    && added[0].reply.Resolved?
    && CommittedAfterBegin(conn, tx, body, added[1..], v)
  }

  /** Once the body's statements have all answered, its final step decides.
      A resolution is followed by a commit: a commit that resolves ends the
      bracket with that value, one that never settles ends it pending, and
      one that rejects is followed by the rollback of `RolledBackAt`. A
      rejection is followed by that rollback directly. A final step that
      never settles leaves the bracket pending with nothing further issued. */
  ghost predicate BodyDecidesAfterBegin<T>(conn: ConnId, body: Body<T>, rest: seq<Event>, o: Outcome<T>) {
    var n := |body.stmts|;
    n <= |rest| && AllAnswered(body.stmts, rest[..n]) ==>
      SettlesFrom(conn, body.finish(AnswersOf(body.stmts, rest[..n])), rest, n, o)
  }

  /** How the bracket ends once the body settled as `v` with its last call
      at index `n - 1` of `rest`. */
  ghost predicate SettlesFrom<T>(conn: ConnId, v: Outcome<T>, rest: seq<Event>, n: nat, o: Outcome<T>) {
    && (v.Pending? ==> |rest| == n && o.Pending?)
    && (v.Resolved? ==>
          && n < |rest|
          && rest[n].sub == ControlSub(conn, Commit)
          && (rest[n].reply.Resolved? ==> |rest| == n + 1 && o == v)
          && (rest[n].reply.Pending? ==> |rest| == n + 1 && o.Pending?)
          && (rest[n].reply.Rejected? ==> RolledBackAt(conn, rest, n + 1, rest[n].reply.error, o)))
    && (v.Rejected? ==> RolledBackAt(conn, rest, n, v.error, o))
  }

  ghost predicate BodyDecides<T>(conn: ConnId, body: Body<T>, added: seq<Event>, o: Outcome<T>) {
    0 < |added| && added[0].reply.Resolved? ==> BodyDecidesAfterBegin(conn, body, added[1..], o)
  }

  /** A body statement that fails after every earlier one answered ends the
      body: a rejection is followed by the rollback of `RolledBackAt` with the
      statement's error as the cause; a statement that never settles leaves
      the bracket pending with nothing further issued. */
  ghost predicate StmtFailureStopsAfterBegin<T>(conn: ConnId, body: Body<T>, rest: seq<Event>, o: Outcome<T>) {
    forall k :: 0 <= k < |body.stmts| && k < |rest| && AllAnswered(body.stmts[..k], rest[..k]) ==>
      StopsAt(conn, body, rest, o, k)
  }

  /** How the bracket goes on after statement `k` of the body (issued as
      `rest[k]`) failed. */
  ghost predicate StopsAt<T>(conn: ConnId, body: Body<T>, rest: seq<Event>, o: Outcome<T>, k: nat)
    requires k < |body.stmts| && k < |rest|
  {
    var failed := StepOutcome(body.stmts[k], rest[k].reply);
    && (failed.Pending? ==> |rest| == k + 1 && o.Pending?)
    && (failed.Rejected? ==> RolledBackAt(conn, rest, k + 1, failed.error, o))
  }

  /** The body's statements are issued in order after begin: once the first
      `k` have all answered, statement `k` is the next call. */
  ghost predicate StmtsInOrderAfterBegin<T>(tx: Transaction, body: Body<T>, rest: seq<Event>) {
    forall k :: 0 <= k < |body.stmts| && k <= |rest| && AllAnswered(body.stmts[..k], rest[..k]) ==>
      IssuedAt(tx, body, rest, k)
  }

  ghost predicate IssuedAt<T>(tx: Transaction, body: Body<T>, rest: seq<Event>, k: nat)
    requires k < |body.stmts|
  {
    k < |rest| && rest[k].sub == SubmissionFor(tx, body.stmts[k])
  }

  ghost predicate StmtsInOrder<T>(tx: Transaction, body: Body<T>, added: seq<Event>) {
    0 < |added| && added[0].reply.Resolved? ==> StmtsInOrderAfterBegin(tx, body, added[1..])
  }

  ghost predicate StmtFailureStops<T>(conn: ConnId, body: Body<T>, added: seq<Event>, o: Outcome<T>) {
    0 < |added| && added[0].reply.Resolved? ==> StmtFailureStopsAfterBegin(conn, body, added[1..], o)
  }

  /** How a run that rejected with `e` ends: with a rollback that settled.
      A rejected rollback's error is what escapes; otherwise, when the call
      just before the rollback was rejected (begin, a body statement or
      commit), its error is rethrown. */
  ghost predicate EndsInRollback(conn: ConnId, added: seq<Event>, e: Error) {
    && 0 < |added|
    && Last(added).sub == ControlSub(conn, Rollback)
    && Last(added).reply.Settled()
    && (Last(added).reply.Rejected? ==> e == Last(added).reply.error)
    && (Last(added).reply.Resolved? && 2 <= |added| && added[|added| - 2].reply.Rejected? ==>
          e == added[|added| - 2].reply.error)
  }

  /** A bracket that rejected with `e`: at least begin and rollback were
      issued, and it ends as above. */
  ghost predicate RolledBackWith(conn: ConnId, added: seq<Event>, e: Error) {
    2 <= |added| && EndsInRollback(conn, added, e)
  }

  /** A resolved call in front does not change how a run ends. */
  lemma EndsInRollbackAfter(conn: ConnId, first: Event, added: seq<Event>, e: Error)
    requires first.reply.Resolved?
    requires EndsInRollback(conn, added, e)
    ensures EndsInRollback(conn, [first] + added, e)
  {
    var all := [first] + added;
    assert Last(all) == Last(added);
    if 2 <= |added| {
      assert all[|all| - 2] == added[|added| - 2];
    }
  }

  /** The body's run is the prefix of a begun bracket's calls, and when the
      first `n` of those all answered, that prefix is exactly the body's run. */
  lemma BodyRunIsPrefix<T>(conn: ConnId, flag: Option<bool>, body: Body<T>, w: World)
    ensures var b := RunBody(NewTransaction(conn, flag), body, w);
            var r := Begun(conn, flag, body, w);
            var n := |body.stmts|;
            var rest := Added(w, r.world);
            && b.world.log <= r.world.log
            && Added(w, b.world) <= rest
            && (n <= |rest| && AllAnswered(body.stmts, rest[..n]) ==>
                  Added(w, b.world) == rest[..n] && AllAnswered(body.stmts, Added(w, b.world)))
  {
  }

  /** Once begun, the body's final step decides the bracket (see
      `BodyDecidesAfterBegin`). */
  lemma BegunBodyDecides<T>(conn: ConnId, flag: Option<bool>, body: Body<T>, w: World)
    ensures var r := Begun(conn, flag, body, w);
            BodyDecidesAfterBegin(conn, body, Added(w, r.world), r.outcome)
  {
    var b := RunBody(NewTransaction(conn, flag), body, w);
    var r := Begun(conn, flag, body, w);
    BegunUnfolds(conn, flag, body, w);
    BodyRunIsPrefix(conn, flag, body, w);
    BodyOutcome(NewTransaction(conn, flag), body, w);
    AfterBodySettles(conn, b.outcome, w, b.world);
  }

  /** When statement `k` fails after every earlier one answered in calls
      that extend the body's run, the body's run is exactly the first `k + 1`
      of them and its outcome is that failure. */
  lemma BodyStoppedAt<T>(tx: Transaction, body: Body<T>, w: World, rest: seq<Event>, k: nat)
    requires Added(w, RunBody(tx, body, w).world) <= rest
    requires k < |body.stmts| && k < |rest|
    requires AllAnswered(body.stmts[..k], rest[..k])
    requires !StepOutcome(body.stmts[k], rest[k].reply).Resolved?
    ensures var b := RunBody(tx, body, w);
            var failed := StepOutcome(body.stmts[k], rest[k].reply);
            && Added(w, b.world) == rest[..k + 1]
            && (b.outcome.Pending? <==> failed.Pending?)
            && (b.outcome.Rejected? ==> b.outcome.error == failed.error)
  {
  }

  /** Once the first `k` statements have answered in calls that extend the
      body's run, the body's run reaches statement `k`. */
  lemma BodyReaches<T>(tx: Transaction, body: Body<T>, w: World, rest: seq<Event>, k: nat)
    requires Added(w, RunBody(tx, body, w).world) <= rest
    requires k < |body.stmts| && k <= |rest|
    requires AllAnswered(body.stmts[..k], rest[..k])
    ensures k < |Added(w, RunBody(tx, body, w).world)|
  {
  }

  /** Once begun, statement `k` is issued as soon as the earlier ones
      answered. */
  lemma BegunIssuesAt<T>(conn: ConnId, flag: Option<bool>, body: Body<T>, w: World, k: nat)
    requires var rest := Added(w, Begun(conn, flag, body, w).world);
             && k < |body.stmts| && k <= |rest|
             && AllAnswered(body.stmts[..k], rest[..k])
    ensures var r := Begun(conn, flag, body, w);
            IssuedAt(NewTransaction(conn, flag), body, Added(w, r.world), k)
  {    var tx := NewTransaction(conn, flag);
    var rest := Added(w, Begun(conn, flag, body, w).world);
    BodyRunIsPrefix(conn, flag, body, w);
    BodyReaches(tx, body, w, rest, k);
    BodyIssues(tx, body, w);
  }

  lemma BegunStmtsInOrder<T>(conn: ConnId, flag: Option<bool>, body: Body<T>, w: World)
    ensures var r := Begun(conn, flag, body, w);
            StmtsInOrderAfterBegin(NewTransaction(conn, flag), body, Added(w, r.world))
  {
    var r := Begun(conn, flag, body, w);
    var rest := Added(w, r.world);
    forall k | 0 <= k < |body.stmts| && k <= |rest| && AllAnswered(body.stmts[..k], rest[..k])
      ensures IssuedAt(NewTransaction(conn, flag), body, rest, k)
    {
      BegunIssuesAt(conn, flag, body, w, k);
    }
  }

  lemma BracketStmtsInOrder<T>(conn: ConnId, beginSql: string, flag: Option<bool>, body: Body<T>, w: World)
    ensures var r := Bracket(conn, beginSql, flag, body, w);
            StmtsInOrder(NewTransaction(conn, flag), body, Added(w, r.world))
  {
    var r := Bracket(conn, beginSql, flag, body, w);
    var begun := Control(conn, beginSql, w);
    AddedSplit(w, begun.world, r.world);
    if begun.outcome.Resolved? {
      assert r == Begun(conn, flag, body, begun.world);
      BegunStmtsInOrder(conn, flag, body, begun.world);
    }
  }

  /** Once begun, a failing statement `k` stops the bracket. */
  lemma BegunStopsAt<T>(conn: ConnId, flag: Option<bool>, body: Body<T>, w: World, k: nat)
    requires var rest := Added(w, Begun(conn, flag, body, w).world);
             && k < |body.stmts| && k < |rest|
             && AllAnswered(body.stmts[..k], rest[..k])
    ensures var r := Begun(conn, flag, body, w);
            StopsAt(conn, body, Added(w, r.world), r.outcome, k)
  {
    var tx := NewTransaction(conn, flag);
    var b := RunBody(tx, body, w);
    var r := Begun(conn, flag, body, w);
    var rest := Added(w, r.world);
    if !StepOutcome(body.stmts[k], rest[k].reply).Resolved? {
      BegunUnfolds(conn, flag, body, w);
      BodyRunIsPrefix(conn, flag, body, w);
      BodyStoppedAt(tx, body, w, rest, k);
      AfterBodySettles(conn, b.outcome, w, b.world);
    }
  }

  /** After a body that settled as `o` in world `bw`: the commit or
      rollback path of `SettlesFrom`, counted from the body's own calls. */
  lemma AfterBodySettles<T>(conn: ConnId, o: Outcome<T>, w: World, bw: World)
    requires w.log <= bw.log
    ensures var r := AfterBody(conn, o, bw);
            SettlesFrom(conn, o, Added(w, r.world), |Added(w, bw)|, r.outcome)
  {
  }

  /** Once begun, a failing statement stops the bracket (see
      `StmtFailureStopsAfterBegin`). */
  lemma BegunStmtFailureStops<T>(conn: ConnId, flag: Option<bool>, body: Body<T>, w: World)
    ensures var r := Begun(conn, flag, body, w);
            StmtFailureStopsAfterBegin(conn, body, Added(w, r.world), r.outcome)
  {
    var r := Begun(conn, flag, body, w);
    var rest := Added(w, r.world);
    forall k | 0 <= k < |body.stmts| && k < |rest| && AllAnswered(body.stmts[..k], rest[..k])
      ensures StopsAt(conn, body, rest, r.outcome, k)
    {
      BegunStopsAt(conn, flag, body, w, k);
    }
  }

  /** A begun bracket that resolves committed (see `CommittedAfterBegin`). */
  lemma BegunCommits<T>(conn: ConnId, flag: Option<bool>, body: Body<T>, w: World)
    ensures var r := Begun(conn, flag, body, w);
            r.outcome.Resolved? ==>
              CommittedAfterBegin(conn, NewTransaction(conn, flag), body, Added(w, r.world), r.outcome.value)
  {
    var b := RunBody(NewTransaction(conn, flag), body, w);
    var r := Begun(conn, flag, body, w);
    BegunUnfolds(conn, flag, body, w);
    if r.outcome.Resolved? {
      assert b.outcome.Resolved?;
      BodyOutcome(NewTransaction(conn, flag), body, w);
      var n := |body.stmts|;
      var rest := Added(w, r.world);
      AddedSplit(w, b.world, r.world);
      assert r.world.log == b.world.log + [r.world.log[|b.world.log|]];
      assert rest[..n] == Added(w, b.world);
    }
  }

  /** A begun bracket that rejects ends with a settled rollback (see
      `EndsInRollback`). */
  lemma BegunRollsBack<T>(conn: ConnId, flag: Option<bool>, body: Body<T>, w: World)
    ensures var r := Begun(conn, flag, body, w);
            r.outcome.Rejected? ==> EndsInRollback(conn, Added(w, r.world), r.outcome.error)
  {
  }

  /** The rollback after a body that rejected with `e`: when the body's last
      call was itself rejected, `e` is that call's error. */
  lemma BodyRejectedRollsBack<T>(conn: ConnId, e: Error, w: World, bw: World)
    requires w.log <= bw.log
    requires |w.log| < |bw.log| && Last(bw.log).reply.Rejected? ==> e == Last(bw.log).reply.error
    ensures var r := Recover<T>(conn, e, bw);
            r.outcome.Rejected? ==> EndsInRollback(conn, Added(w, r.world), r.outcome.error)
  {
    var r := Recover<T>(conn, e, bw);
    var added := Added(w, r.world);
    assert Last(added) == Last(r.world.log);
    if 2 <= |added| {
      assert added[|added| - 2] == Last(bw.log);
    }
  }

  /** The rollback after a commit that rejected: the commit's error is the
      one rethrown unless the rollback's own error replaces it. */
  lemma CommitRejectedRollsBack<T>(conn: ConnId, v: T, w: World, bw: World)
    requires w.log <= bw.log
    ensures var r := CommitWith(conn, v, bw);
            r.outcome.Rejected? ==> EndsInRollback(conn, Added(w, r.world), r.outcome.error)
  {
    var r := CommitWith(conn, v, bw);
    if r.outcome.Rejected? {
      var added := Added(w, r.world);
      assert Last(added) == Last(r.world.log);
      assert added[|added| - 2] == r.world.log[|bw.log|];
    }
  }

  /** A bracket that resolves committed (see `Committed`). */
  lemma BracketCommits<T>(conn: ConnId, beginSql: string, flag: Option<bool>, body: Body<T>, w: World)
    ensures var r := Bracket(conn, beginSql, flag, body, w);
            r.outcome.Resolved? ==>
              Committed(conn, beginSql, NewTransaction(conn, flag), body, Added(w, r.world), r.outcome.value)
  {
    var r := Bracket(conn, beginSql, flag, body, w);
    var begun := Control(conn, beginSql, w);
    if r.outcome.Resolved? {
      assert begun.outcome.Resolved?;
      assert r == Begun(conn, flag, body, begun.world);
      BegunCommits(conn, flag, body, begun.world);
      AddedSplit(w, begun.world, r.world);
    }
  }

  /** Once begin has resolved, the body's final step decides the bracket. */
  lemma BracketBodyDecides<T>(conn: ConnId, beginSql: string, flag: Option<bool>, body: Body<T>, w: World)
    ensures var r := Bracket(conn, beginSql, flag, body, w);
            BodyDecides(conn, body, Added(w, r.world), r.outcome)
  {
    var r := Bracket(conn, beginSql, flag, body, w);
    var begun := Control(conn, beginSql, w);
    AddedSplit(w, begun.world, r.world);
    if begun.outcome.Resolved? {
      assert r == Begun(conn, flag, body, begun.world);
      BegunBodyDecides(conn, flag, body, begun.world);
    }
  }

  /** Once begin has resolved, a failing body statement stops the bracket. */
  lemma BracketStmtFailureStops<T>(conn: ConnId, beginSql: string, flag: Option<bool>, body: Body<T>, w: World)
    ensures var r := Bracket(conn, beginSql, flag, body, w);
            StmtFailureStops(conn, body, Added(w, r.world), r.outcome)
  {
    var r := Bracket(conn, beginSql, flag, body, w);
    var begun := Control(conn, beginSql, w);
    AddedSplit(w, begun.world, r.world);
    if begun.outcome.Resolved? {
      assert r == Begun(conn, flag, body, begun.world);
      BegunStmtFailureStops(conn, flag, body, begun.world);
    }
  }

  /** A bracket that rejects ends with a settled rollback, also when it was
      the begin or the commit that failed (see `RolledBackWith`). */
  lemma BracketRollsBack<T>(conn: ConnId, beginSql: string, flag: Option<bool>, body: Body<T>, w: World)
    ensures var r := Bracket(conn, beginSql, flag, body, w);
            r.outcome.Rejected? ==> RolledBackWith(conn, Added(w, r.world), r.outcome.error)
  {
    var r := Bracket(conn, beginSql, flag, body, w);
    var begun := Control(conn, beginSql, w);
    AddedSplit(w, begun.world, r.world);
    match begun.outcome
    case Rejected(e) =>
      BodyRejectedRollsBack<T>(conn, e, w, begun.world);
    case Resolved(_) =>
      BegunRollsBack(conn, flag, body, begun.world);
      if r.outcome.Rejected? {
        EndsInRollbackAfter(conn, Last(begun.world.log), Added(begun.world, r.world), r.outcome.error);
      }
    case Pending =>
  }

  /** A bracket takes the engine's responses one per call, in the order of
      its calls: the begin, the body's operations, then commit and rollback. */
  lemma ControlConsumes(conn: ConnId, sql: string, w: World)
    ensures Consumed(w, Control(conn, sql, w).world)
  {
    SubmitConsumes(w, conn, sql, [], false);
  }

  lemma RecoverConsumes<T>(conn: ConnId, cause: Error, w: World)
    ensures Consumed(w, Recover<T>(conn, cause, w).world)
  {
    ControlConsumes(conn, Rollback, w);
  }

  lemma AfterBodyConsumes<T>(conn: ConnId, o: Outcome<T>, w: World)
    ensures Consumed(w, AfterBody(conn, o, w).world)
  {
    match o
    case Pending =>
    case Rejected(e) =>
      RecoverConsumes<T>(conn, e, w);
    case Resolved(v) =>
      var committed := Control(conn, Commit, w);
      ControlConsumes(conn, Commit, w);
      if committed.outcome.Rejected? {
        RecoverConsumes<T>(conn, committed.outcome.error, committed.world);
        ConsumedTrans(w, committed.world, Recover<T>(conn, committed.outcome.error, committed.world).world);
      }
  }

  lemma BracketConsumes<T>(conn: ConnId, beginSql: string, flag: Option<bool>, body: Body<T>, w: World)
    ensures Consumed(w, Bracket(conn, beginSql, flag, body, w).world)
  {
    var begun := Control(conn, beginSql, w);
    ControlConsumes(conn, beginSql, w);
    match begun.outcome
    case Pending =>
    case Rejected(e) =>
      RecoverConsumes<T>(conn, e, begun.world);
      ConsumedTrans(w, begun.world, Recover<T>(conn, e, begun.world).world);
    case Resolved(_) =>
      var tx := NewTransaction(conn, flag);
      var b := RunBody(tx, body, begun.world);
      AfterBodyConsumes(conn, b.outcome, b.world);
      BegunUnfolds(conn, flag, body, begun.world);
      ConsumedTrans(begun.world, b.world, AfterBody(conn, b.outcome, b.world).world);
      ConsumedTrans(w, begun.world, Begun(conn, flag, body, begun.world).world);
  }

  /** Every call in `events` that is not read-only is a commit or a
      rollback on `conn`. */
  ghost predicate OnlyBracketWrites(conn: ConnId, events: seq<Event>) {
    forall i :: 0 <= i < |events| && !events[i].sub.readOnly ==>
      events[i].sub == ControlSub(conn, Commit) || events[i].sub == ControlSub(conn, Rollback)
  }

  lemma OnlyBracketWritesConcat(conn: ConnId, a: seq<Event>, b: seq<Event>)
    requires OnlyBracketWrites(conn, a) && OnlyBracketWrites(conn, b)
    ensures OnlyBracketWrites(conn, a + b)
  {
    forall i | 0 <= i < |a + b|
      ensures (a + b)[i] == if i < |a| then a[i] else b[i - |a|]
    {
    }
  }

  /** After the body, only commit and rollback are issued. */
  lemma AfterBodyWrites<T>(conn: ConnId, o: Outcome<T>, w: World)
    ensures OnlyBracketWrites(conn, Added(w, AfterBody(conn, o, w).world))
  {
    var r := AfterBody(conn, o, w);
    match o
    case Pending =>
    case Rejected(e) =>
      assert Added(w, r.world) == [Last(r.world.log)];
    case Resolved(v) =>
      var added := Added(w, r.world);
      assert added[0] == r.world.log[|w.log|];
      if |added| == 2 {
        assert added[1] == Last(r.world.log);
      }
  }

  /** On a read-only handle, a begun bracket writes nothing but commit and
      rollback. */
  lemma BegunReadOnlyWrites<T>(conn: ConnId, body: Body<T>, w: World)
    ensures OnlyBracketWrites(conn, Added(w, Begun(conn, Some(true), body, w).world))
  {
    var tx := NewTransaction(conn, Some(true));
    var b := RunBody(tx, body, w);
    var r := Begun(conn, Some(true), body, w);
    BegunUnfolds(conn, Some(true), body, w);
    BodyIssues(tx, body, w);
    AfterBodyWrites(conn, b.outcome, b.world);
    AddedSplit(w, b.world, r.world);
    OnlyBracketWritesConcat(conn, Added(w, b.world), Added(b.world, r.world));
  }

  /** With a read-only handle, every call after begin that is not read-only
      is a commit or a rollback: the body's own statements are all
      submitted read-only. */
  lemma BracketReadOnlyWrites<T>(conn: ConnId, beginSql: string, body: Body<T>, w: World)
    ensures var r := Bracket(conn, beginSql, Some(true), body, w);
            OnlyBracketWrites(conn, Added(w, r.world)[1..])
  {
    var r := Bracket(conn, beginSql, Some(true), body, w);
    var begun := Control(conn, beginSql, w);
    AddedSplit(w, begun.world, r.world);
    match begun.outcome
    case Pending =>
    case Rejected(e) =>
      assert Added(begun.world, r.world) == [Last(r.world.log)];
    case Resolved(_) =>
      BegunReadOnlyWrites(conn, body, begun.world);
  }

  /** Everything a bracket promises about its calls `added` and its
      outcome `o`: begin comes first, every call is a one-query batch on
      `conn`, every failure is followed by one last rollback (`RolledBackAt`),
      a begin that never settles stops everything, a resolution means the
      bracket committed, a rejection means it rolled back, and the body's
      statements and final step decide which. */
  ghost predicate Bracketed<T>(conn: ConnId, beginSql: string, tx: Transaction, body: Body<T>, added: seq<Event>, o: Outcome<T>) {
    && 0 < |added|
    && added[0].sub == ControlSub(conn, beginSql)
    && SingleQueriesOn(added, conn)
    && (added[0].reply.Rejected? ==> RolledBackAt(conn, added, 1, added[0].reply.error, o))
    && (added[0].reply.Pending? ==> |added| == 1 && o.Pending?)
    && (o.Resolved? ==> Committed(conn, beginSql, tx, body, added, o.value))
    && (o.Rejected? ==> RolledBackWith(conn, added, o.error))
    && StmtsInOrder(tx, body, added)
    && (tx.readOnly ==> OnlyBracketWrites(conn, added[1..]))
    && BodyDecides(conn, body, added, o)
    && StmtFailureStops(conn, body, added, o)
  }

  /** The bracket keeps all of the promises above, and its calls take the
      engine's responses one by one in the order they were made. */
  lemma BracketKeepsPromises<T>(conn: ConnId, beginSql: string, flag: Option<bool>, body: Body<T>, w: World)
    ensures var r := Bracket(conn, beginSql, flag, body, w);
            && Bracketed(conn, beginSql, NewTransaction(conn, flag), body, Added(w, r.world), r.outcome)
            && Consumed(w, r.world)
  {
    var r := Bracket(conn, beginSql, flag, body, w);
    BracketConsumes(conn, beginSql, flag, body, w);
    BracketBegins(conn, beginSql, flag, body, w);
    BracketCommits(conn, beginSql, flag, body, w);
    BracketRollsBack(conn, beginSql, flag, body, w);
    BracketBodyDecides(conn, beginSql, flag, body, w);
    BracketStmtFailureStops(conn, beginSql, flag, body, w);
    BracketStmtsInOrder(conn, beginSql, flag, body, w);
    if flag == Some(true) {
      BracketReadOnlyWrites(conn, beginSql, body, w);
    }
    assert Added(w, r.world)[0] == r.world.log[|w.log|];
  }

  /** A body of one `executeSqlAsync(sql, ...args)` whose final step is
      `answer` applied to that statement's result set. */
  function OneStatementBody<U>(sql: string, args: seq<Value>, answer: ResultSet -> Outcome<U>): (body: Body<U>)
    ensures body.stmts == [ExecuteSql(sql, args)]
    ensures forall rs :: body.finish([ResultOf(rs)]) == answer(rs)
  {
    Body([ExecuteSql(sql, args)], (answers: seq<Answer>) => SoleAnswer(answers, answer))
  }

  function SoleAnswer<U>(answers: seq<Answer>, answer: ResultSet -> Outcome<U>): Outcome<U> {
    if |answers| == 1 && answers[0].ResultOf? then answer(answers[0].resultSet)
    else Pending  // not reached: a one-statement body has exactly one answer
  }

  /** The whole life of a one-statement bracket whose statement is sent as
      `sub`, read off its calls: begin; on a failed begin, the rollback of
      `RolledBackAt`; else the statement; if the statement fails, that
      rollback with its error; if it answers, `answer` decides between commit
      and that rollback; a commit that resolves returns the answer's value,
      one that never settles ends the bracket pending, and one that rejects
      is followed by the rollback. */
  ghost predicate OneStatement<U>(conn: ConnId, beginSql: string, sub: Submission, added: seq<Event>, o: Outcome<U>,
                                  answer: ResultSet -> Outcome<U>) {
    && 0 < |added|
    && added[0].sub == ControlSub(conn, beginSql)
    && (added[0].reply.Pending? ==> |added| == 1 && o.Pending?)
    && (added[0].reply.Rejected? ==> RolledBackAt(conn, added, 1, added[0].reply.error, o))
    && (added[0].reply.Resolved? ==>
          && 2 <= |added|
          && added[1].sub == sub
          && (added[1].reply.Pending? ==> |added| == 2 && o.Pending?)
          && (added[1].reply.Rejected? ==> RolledBackAt(conn, added, 2, added[1].reply.error, o))
          && (added[1].reply.Resolved? ==>
                var v := answer(added[1].reply.value);
                && (v.Pending? ==> |added| == 2 && o.Pending?)
                && (v.Resolved? ==>
                      && 3 <= |added|
                      && added[2].sub == ControlSub(conn, Commit)
                      && (added[2].reply.Resolved? ==> |added| == 3 && o == v)
                      && (added[2].reply.Pending? ==> |added| == 3 && o.Pending?)
                      && (added[2].reply.Rejected? ==> RolledBackAt(conn, added, 3, added[2].reply.error, o)))
                && (v.Rejected? ==> RolledBackAt(conn, added, 2, v.error, o))))
    && (o.Resolved? ==>
          && |added| == 3
          && added[1].reply.Resolved?
          && o == answer(added[1].reply.value)
          && added[2].sub == ControlSub(conn, Commit)
          && added[2].reply.Resolved?)
    && (o.Rejected? ==> RolledBackWith(conn, added, o.error))
  }

  /** A bracket around a one-statement body lives as `OneStatement` says. */
  lemma OneStatementBracketed<U>(conn: ConnId, beginSql: string, tx: Transaction, sql: string, args: seq<Value>,
                                 answer: ResultSet -> Outcome<U>, added: seq<Event>, o: Outcome<U>)
    requires tx.conn == conn
    requires Bracketed(conn, beginSql, tx, OneStatementBody(sql, args, answer), added, o)
    ensures OneStatement(conn, beginSql, SubmissionFor(tx, ExecuteSql(sql, args)), added, o, answer)
  {
    var body := OneStatementBody(sql, args, answer);
    var s := ExecuteSql(sql, args);
    if 0 < |added| && added[0].reply.Resolved? {
      var rest := added[1..];
      assert AllAnswered(body.stmts[..0], rest[..0]);
      assert IssuedAt(tx, body, rest, 0);
      if 1 <= |rest| {
        assert StopsAt(conn, body, rest, o, 0);
        if rest[0].reply.Resolved? {
          var rs := rest[0].reply.value;
          assert StepOutcome(s, rest[0].reply) == Resolved(ResultOf(rs));
          assert AllAnswered(body.stmts, rest[..1]);
          assert AnswersOf(body.stmts, rest[..1]) == [ResultOf(rs)];
        }
      }
      if o.Resolved? {
        assert CommittedAfterBegin(conn, tx, body, rest, o.value);
        assert IssuedPrefix(tx, body.stmts, rest[..1]);
        assert rest[..1][0] == added[1];
        var rs := added[1].reply.value;
        assert AnswersOf(body.stmts, rest[..1]) == [ResultOf(rs)];
      }
    }
  }

  /** Transforming the outcome afterwards, as `q` does with `rs.rows`, is the
      same as a final step that transforms the answer. */
  lemma OneStatementMap<U, V>(conn: ConnId, beginSql: string, sub: Submission, added: seq<Event>, o: Outcome<U>,
                              answer: ResultSet -> Outcome<U>, f: U -> V, mapped: ResultSet -> Outcome<V>)
    requires OneStatement(conn, beginSql, sub, added, o, answer)
    requires forall rs :: mapped(rs) == answer(rs).Map(f)
    ensures OneStatement(conn, beginSql, sub, added, o.Map(f), mapped)
  {
  }

  /** The final step of `e`: the statement's result set itself. */
  function Whole(rs: ResultSet): Outcome<ResultSet> {
    Resolved(rs)
  }

  function RowsIn(rs: ResultSet): seq<Row> {
    rs.rows
  }

  /** The final step of `q`, as seen after `rs.rows` is taken. */
  function AllRows(rs: ResultSet): Outcome<seq<Row>> {
    Resolved(rs.rows)
  }

  /** The final step of `q1`: the cardinality rule on the rows. */
  function OneRow(rs: ResultSet): Outcome<Option<Row>> {
    ExpectOne(rs.rows)
  }
}

=== FILE: callback.dfy ===
/** The engine boundary: expo-sqlite's callback-based `exec`, played by a
    scripted oracle, and the adapter that turns one callback into one
    settled (or never settled) promise. */
module Callback {
  import opened SqlTypes

  /** One per-statement entry of the callback's result array: a `ResultSet`
      or a `ResultSetError` carrying its `error` field. */
  datatype Entry = Rows(resultSet: ResultSet) | Failed(error: Error)

  /** What the engine does with the callback of one `exec` call: invoke it
      with `(error, resultSet)`, where either may be absent, or never invoke it. */
  datatype Response = Invoke(error: Option<Error>, resultSet: Option<seq<Entry>>) | Silent

  /** One `exec` call as the engine observed it, with the outcome the adapter
      gave it. */
  datatype Event = Event(sub: Submission, reply: Outcome<ResultSet>)

  /** The engine's state: the responses it will give, in order, and the log of
      every call made so far. Once the script is exhausted the engine never
      calls back. */
  datatype World = World(script: seq<Response>, log: seq<Event>)

  /** A settled-or-pending outcome together with the world it leaves behind. */
  datatype Run<+T> = Run(outcome: Outcome<T>, world: World)

  /** `w2` is `w1` after some further calls: the log only grew. */
  ghost predicate Extends(w1: World, w2: World) {
    w1.log <= w2.log
  }

  /** The calls made on the way from `w1` to `w2`. */
  function Added(w1: World, w2: World): seq<Event>
    requires |w1.log| <= |w2.log|
  {
    w2.log[|w1.log|..]
  }

  lemma AddedSplit(w1: World, w2: World, w3: World)
    requires w1.log <= w2.log && w2.log <= w3.log
    ensures Added(w1, w3) == Added(w1, w2) + Added(w2, w3)
  {
  }

  /** Every call in `events` went to handle `conn` with a batch of one query. */
  ghost predicate SingleQueriesOn(events: seq<Event>, conn: ConnId) {
    forall i :: 0 <= i < |events| ==> events[i].sub.conn == conn && |events[i].sub.queries| == 1
  }

  lemma SingleQueriesOnConcat(a: seq<Event>, b: seq<Event>, conn: ConnId)
    requires SingleQueriesOn(a, conn) && SingleQueriesOn(b, conn)
    ensures SingleQueriesOn(a + b, conn)
  {
  }

  function NextResponse(w: World): Response {
    if |w.script| == 0 then Silent else w.script[0]
  }

  /** The callback's result array has a first element. */
  predicate HasFirst(resp: Response) {
    resp.Invoke? && resp.resultSet.Some? && |resp.resultSet.value| > 0
  }

  function First(resp: Response): Entry
    requires HasFirst(resp)
  {
    resp.resultSet.value[0]
  }

  /** `resolve`/`reject` on a promise that has already settled does nothing. */
  function Settle<T>(p: Outcome<T>, s: Outcome<T>): Outcome<T> {
    if p.Pending? then s else p
  }

  /** The promise executor's callback: a top-level error rejects; then, if the
      result array has a first entry, its `error` field rejects and otherwise
      the entry resolves. Both steps run, so the first settlement wins. */
  function Normalize(resp: Response): (r: Outcome<ResultSet>)
    ensures r.Rejected? <==> resp.Invoke? && (resp.error.Some? || (HasFirst(resp) && First(resp).Failed?))
    ensures r.Rejected? && resp.error.Some? ==> r.error == resp.error.value
    ensures r.Rejected? && resp.error.None? ==> r.error == First(resp).error
    ensures r.Resolved? <==> resp.Invoke? && resp.error.None? && HasFirst(resp) && First(resp).Rows?
    ensures r.Resolved? ==> r.value == First(resp).resultSet
  {
    match resp
    case Silent => Pending
    case Invoke(error, resultSet) =>
      var afterError := if error.Some? then Settle(Pending, Rejected(error.value)) else Pending;
      if resultSet.Some? && |resultSet.value| > 0 then
        var result := resultSet.value[0];
        match result
        case Failed(e) => Settle(afterError, Rejected(e))
        case Rows(rs) => Settle(afterError, Resolved(rs))
      else
        afterError
  }

  /** Only the first entry of the result array is ever looked at. */
  lemma NormalizeIgnoresLaterEntries(error: Option<Error>, first: Entry, rest: seq<Entry>)
    ensures Normalize(Invoke(error, Some([first] + rest))) == Normalize(Invoke(error, Some([first])))
  {
  }

  /** `db.exec([{ sql, args }], readOnly, callback)` wrapped in a promise:
      exactly one call carrying one query, answered by the next scripted
      response. */
  function Submit(w: World, conn: ConnId, sql: string, args: seq<Value>, readOnly: bool): (r: Run<ResultSet>)
    ensures Extends(w, r.world)
    ensures r.world.log == w.log + [Event(Submission(conn, [Query(sql, args)], readOnly), r.outcome)]
    ensures r.outcome == Normalize(NextResponse(w))
    ensures |w.script| > 0 ==> r.world.script == w.script[1..]
  {
    var reply := Normalize(NextResponse(w));
    var rest := if |w.script| == 0 then [] else w.script[1..];
    Run(reply, World(rest, w.log + [Event(Submission(conn, [Query(sql, args)], readOnly), reply)]))
  }

  /** The empty result set the engine reports for a statement that returns
      no rows, such as `begin` or `commit`. */
  const NoRows := ResultSet(None, 0, [])

  /** A response that invokes the callback with one result set. */
  function Answers(rs: ResultSet): (resp: Response)
    ensures Normalize(resp) == Resolved(rs)
  {
    Invoke(None, Some([Rows(rs)]))
  }

  /** A response that invokes the callback with a top-level error only. */
  function Fails(e: Error): (resp: Response)
    ensures Normalize(resp) == Rejected(e)
  {
    Invoke(Some(e), None)
  }

  /** The engine's `i`-th response from now on; past the end of the script
      it never calls back. */
  function ResponseAt(script: seq<Response>, i: nat): Response {
    if i < |script| then script[i] else Silent
  }

  /** The script after `n` further calls. */
  function Drop(script: seq<Response>, n: nat): (r: seq<Response>)
    ensures forall j: nat :: ResponseAt(r, j) == ResponseAt(script, n + j)
  {
    if n <= |script| then script[n..] else []
  }

  /** Call number `i` of the log, counted in `w2`, got the outcome of the
      response `w1`'s script had lined up for it. */
  ghost predicate RepliedAt(w1: World, w2: World, i: int)
    requires |w1.log| <= i < |w2.log|
  {
    w2.log[i].reply == Normalize(ResponseAt(w1.script, i - |w1.log|))
  }

  /** From `w1` to `w2`, every call took the next response of the script,
      in order, and nothing else consumed one. */
  ghost predicate Consumed(w1: World, w2: World) {
    && w1.log <= w2.log
    && w2.script == Drop(w1.script, |w2.log| - |w1.log|)
    && forall i :: |w1.log| <= i < |w2.log| ==> RepliedAt(w1, w2, i)
  }

  lemma SubmitConsumes(w: World, conn: ConnId, sql: string, args: seq<Value>, readOnly: bool)
    ensures Consumed(w, Submit(w, conn, sql, args, readOnly).world)
  {
    var r := Submit(w, conn, sql, args, readOnly);
    assert RepliedAt(w, r.world, |w.log|);
  }

  lemma {:induction false} ConsumedTrans(w1: World, w2: World, w3: World)
    requires Consumed(w1, w2) && Consumed(w2, w3)
    ensures Consumed(w1, w3)
  {
    var n := |w2.log| - |w1.log|;
    forall i | |w1.log| <= i < |w3.log|
      ensures RepliedAt(w1, w3, i)
    {
      if i < |w2.log| {
        assert RepliedAt(w1, w2, i);
        assert w3.log[i] == w2.log[i];
      } else {
        assert RepliedAt(w2, w3, i);
        assert ResponseAt(w2.script, i - |w2.log|) == ResponseAt(w1.script, n + (i - |w2.log|));
      }
    }
    var m := |w3.log| - |w2.log|;
    assert w3.script == Drop(w1.script, n + m) by {
      if n <= |w1.script| {
        assert w2.script == w1.script[n..];
        if m <= |w2.script| {
          assert w1.script[n..][m..] == w1.script[n + m..];
        }
      }
    }
  }
}

=== FILE: reentrant_sqlite_database.dfy ===
/** `ReentrantSQLiteDatabase`: every transaction opens its own database
    through `openDbFn` and brackets itself on that database's handle, so
    transactions never wait for one another.

    `openDbFn` is an oracle: the `Reentrant` value holds what its successive
    calls will settle to, and each operation consumes one. Once the list is
    exhausted the call never settles. The opened database is a
    `SQLiteAsyncDatabase`, but only its `executeSqlAsync` is used, so its
    mutex plays no part. */
module ReentrantSQLiteDatabase {
  import opened SqlTypes
  import opened Callback
  import opened AsyncSQLTransaction
  import opened Bracketing
  import SQLiteAsyncDatabase

  const BeginExclusive := "begin exclusive transaction"
  const BeginDeferred := "begin transaction"

  datatype Reentrant = Reentrant(opens: seq<Outcome<SQLiteAsyncDatabase.AsyncDb>>)

  /** An outcome with the opener and the world it leaves behind. */
  datatype ReRun<+T> = ReRun(outcome: Outcome<T>, re: Reentrant, world: World)

  /** What the next `openDbFn()` settles to. */
  function NextOpen(re: Reentrant): Outcome<SQLiteAsyncDatabase.AsyncDb> {
    if |re.opens| == 0 then Pending else re.opens[0]
  }

  /** The opener after one call of `openDbFn()`. */
  function Opened(re: Reentrant): (r: Reentrant)
    ensures |re.opens| > 0 ==> re.opens == [re.opens[0]] + r.opens
  {
    Reentrant(if |re.opens| == 0 then [] else re.opens[1..])
  }

  /** The open runs before the `try`: an open that never settles or rejects
      issues nothing, and its error escapes without a rollback. */
  function OpenThenBracket<T>(re: Reentrant, beginSql: string, flag: Option<bool>, body: Body<T>, w: World)
    : (r: ReRun<T>)
    ensures Extends(w, r.world)
    ensures r.re == Opened(re)
    ensures !NextOpen(re).Resolved? ==> r.world == w
    ensures NextOpen(re).Pending? ==> r.outcome.Pending?
    ensures NextOpen(re).Rejected? ==> r.outcome == Rejected(NextOpen(re).error)
    ensures NextOpen(re).Resolved? ==> Consumed(w, r.world)
  {
    match NextOpen(re)
    case Pending => ReRun(Pending, Opened(re), w)
    case Rejected(e) => ReRun(Rejected(e), Opened(re), w)
    case Resolved(db) =>
      BracketConsumes(db.conn, beginSql, flag, body, w);
      var b := Bracket(db.conn, beginSql, flag, body, w);
      ReRun(b.outcome, Opened(re), b.world)
  }

  /** `new ReentrantSQLiteDatabase(openDbFn)`. */
  function NewReentrant(opens: seq<Outcome<SQLiteAsyncDatabase.AsyncDb>>): (re: Reentrant)
    ensures NextOpen(re) == if |opens| == 0 then Pending else opens[0]
  {
    Reentrant(opens)
  }

  /** `txn`: a bracket on the freshly opened database beginning with `begin
      exclusive transaction`, on a handle that is not read-only. */
  function Txn<T>(re: Reentrant, body: Body<T>, w: World): (r: ReRun<T>)
    ensures Extends(w, r.world)
    ensures r.re == Opened(re)
    ensures !NextOpen(re).Resolved? ==> r.world == w
    ensures NextOpen(re).Pending? ==> r.outcome.Pending?
    ensures NextOpen(re).Rejected? ==> r.outcome == Rejected(NextOpen(re).error)
    ensures NextOpen(re).Resolved? ==>
              var conn := NextOpen(re).value.conn;
              Bracketed(conn, BeginExclusive, Transaction(conn, false), body, Added(w, r.world), r.outcome)
    ensures NextOpen(re).Resolved? ==> Consumed(w, r.world)
  {
    if NextOpen(re).Resolved? then
      BracketKeepsPromises(NextOpen(re).value.conn, BeginExclusive, None, body, w);
      OpenThenBracket(re, BeginExclusive, None, body, w)
    else
      OpenThenBracket(re, BeginExclusive, None, body, w)
  }

  /** `rtxn`: as `txn`, but beginning with a plain `begin transaction` and on
      a read-only handle. */
  function Rtxn<T>(re: Reentrant, body: Body<T>, w: World): (r: ReRun<T>)
    ensures Extends(w, r.world)
    ensures r.re == Opened(re)
    ensures !NextOpen(re).Resolved? ==> r.world == w
    ensures NextOpen(re).Pending? ==> r.outcome.Pending?
    ensures NextOpen(re).Rejected? ==> r.outcome == Rejected(NextOpen(re).error)
    ensures NextOpen(re).Resolved? ==>
              var conn := NextOpen(re).value.conn;
              Bracketed(conn, BeginDeferred, Transaction(conn, true), body, Added(w, r.world), r.outcome)
    ensures NextOpen(re).Resolved? ==> Consumed(w, r.world)
  {
    if NextOpen(re).Resolved? then
      BracketKeepsPromises(NextOpen(re).value.conn, BeginDeferred, Some(true), body, w);
      OpenThenBracket(re, BeginDeferred, Some(true), body, w)
    else
      OpenThenBracket(re, BeginDeferred, Some(true), body, w)
  }

  /** `e`: one statement, submitted not read-only, inside `txn`. */
  function E(re: Reentrant, sql: string, args: seq<Value>, w: World): (r: ReRun<ResultSet>)
    ensures Extends(w, r.world)
    ensures r.re == Opened(re)
    ensures !NextOpen(re).Resolved? ==> r.world == w
    ensures NextOpen(re).Pending? ==> r.outcome.Pending?
    ensures NextOpen(re).Rejected? ==> r.outcome == Rejected(NextOpen(re).error)
    ensures NextOpen(re).Resolved? ==>
              var conn := NextOpen(re).value.conn;
              OneStatement(conn, BeginExclusive, Submission(conn, [Query(sql, args)], false),
                           Added(w, r.world), r.outcome, Whole)
    ensures NextOpen(re).Resolved? ==> Consumed(w, r.world)
  {
    var r := Txn(re, OneStatementBody(sql, args, Whole), w);
    if NextOpen(re).Resolved? then
      var conn := NextOpen(re).value.conn;
      OneStatementBracketed(conn, BeginExclusive, Transaction(conn, false), sql, args, Whole,
                            Added(w, r.world), r.outcome);
      r
    else
      r
  }

  /** `q`: one statement, submitted read-only, inside `rtxn`; a commit that
      resolves returns the rows. */
  function Q(re: Reentrant, sql: string, args: seq<Value>, w: World): (r: ReRun<seq<Row>>)
    ensures Extends(w, r.world)
    ensures r.re == Opened(re)
    ensures !NextOpen(re).Resolved? ==> r.world == w
    ensures NextOpen(re).Pending? ==> r.outcome.Pending?
    ensures NextOpen(re).Rejected? ==> r.outcome == Rejected(NextOpen(re).error)
    ensures NextOpen(re).Resolved? ==>
              var conn := NextOpen(re).value.conn;
              OneStatement(conn, BeginDeferred, Submission(conn, [Query(sql, args)], true),
                           Added(w, r.world), r.outcome, AllRows)
    ensures NextOpen(re).Resolved? ==> Consumed(w, r.world)
  {
    var t := Rtxn(re, OneStatementBody(sql, args, Whole), w);
    if NextOpen(re).Resolved? then
      var conn := NextOpen(re).value.conn;
      OneStatementBracketed(conn, BeginDeferred, Transaction(conn, true), sql, args, Whole,
                            Added(w, t.world), t.outcome);
      OneStatementMap(conn, BeginDeferred, Submission(conn, [Query(sql, args)], true),
                      Added(w, t.world), t.outcome, Whole, RowsIn, AllRows);
      ReRun(t.outcome.Map(RowsIn), t.re, t.world)
    else
      ReRun(t.outcome.Map(RowsIn), t.re, t.world)
  }

  /** `q1`: the cardinality rule runs inside the `rtxn` body. */
  function Q1(re: Reentrant, sql: string, args: seq<Value>, w: World): (r: ReRun<Option<Row>>)
    ensures Extends(w, r.world)
    ensures r.re == Opened(re)
    ensures !NextOpen(re).Resolved? ==> r.world == w
    ensures NextOpen(re).Pending? ==> r.outcome.Pending?
    ensures NextOpen(re).Rejected? ==> r.outcome == Rejected(NextOpen(re).error)
    ensures NextOpen(re).Resolved? ==>
              var conn := NextOpen(re).value.conn;
              OneStatement(conn, BeginDeferred, Submission(conn, [Query(sql, args)], true),
                           Added(w, r.world), r.outcome, OneRow)
    ensures NextOpen(re).Resolved? ==> Consumed(w, r.world)
  {
    var r := Rtxn(re, OneStatementBody(sql, args, OneRow), w);
    if NextOpen(re).Resolved? then
      var conn := NextOpen(re).value.conn;
      OneStatementBracketed(conn, BeginDeferred, Transaction(conn, true), sql, args, OneRow,
                            Added(w, r.world), r.outcome);
      r
    else
      r
  }

  /** `executeSqlAsync`: open a database and forward one call to it, with no
      transaction around it. */
  function ExecuteSqlAsync(re: Reentrant, sql: string, args: seq<Value> := [], readOnly: bool := false, w: World)
    : (r: ReRun<ResultSet>)
    ensures Extends(w, r.world)
    ensures r.re == Opened(re)
    ensures !NextOpen(re).Resolved? ==> r.world == w
    ensures NextOpen(re).Pending? ==> r.outcome.Pending?
    ensures NextOpen(re).Rejected? ==> r.outcome == Rejected(NextOpen(re).error)
    ensures NextOpen(re).Resolved? ==>
              && Added(w, r.world) == [Event(Submission(NextOpen(re).value.conn, [Query(sql, args)], readOnly), r.outcome)]
              && r.outcome == Normalize(NextResponse(w))
    ensures NextOpen(re).Resolved? ==> Consumed(w, r.world)
  {
    match NextOpen(re)
    case Pending => ReRun(Pending, Opened(re), w)
    case Rejected(e) => ReRun(Rejected(e), Opened(re), w)
    case Resolved(db) =>
      var s := SQLiteAsyncDatabase.ExecuteSqlAsync(db, sql, args, readOnly, w);
      ReRun(s.outcome, Opened(re), s.world)
  }

  /** The opened database's mutex is never taken: a transaction runs the same
      whether or not the database it opened is held by some other caller. */
  lemma TxnIgnoresOpenedMutex<T>(opens: seq<Outcome<SQLiteAsyncDatabase.AsyncDb>>, conn: ConnId,
                                 body: Body<T>, w: World)
    ensures var held := Reentrant([Resolved(SQLiteAsyncDatabase.AsyncDb(conn, true))] + opens);
            var free := Reentrant([Resolved(SQLiteAsyncDatabase.AsyncDb(conn, false))] + opens);
            && Txn(held, body, w).outcome == Txn(free, body, w).outcome
            && Txn(held, body, w).world == Txn(free, body, w).world
            && Rtxn(held, body, w).outcome == Rtxn(free, body, w).outcome
            && Rtxn(held, body, w).world == Rtxn(free, body, w).world
  {
  }

  /** No transaction waits for another: even after one whose body never
      settles, the next transaction whose open resolves issues its own begin
      straight away. */
  lemma StalledTxnDoesNotBlock<T, U>(re: Reentrant, first: Body<T>, second: Body<U>, w: World)
    requires Txn(re, first, w).outcome.Pending?
    requires NextOpen(Opened(re)).Resolved?
    ensures var r1 := Txn(re, first, w);
            var r2 := Txn(r1.re, second, r1.world);
            var conn := NextOpen(r1.re).value.conn;
            && w.log <= r1.world.log <= r2.world.log
            && |r1.world.log| < |r2.world.log|
            && r2.world.log[|r1.world.log|].sub == ControlSub(conn, BeginExclusive)
  {
    var r1 := Txn(re, first, w);
    var r2 := Txn(r1.re, second, r1.world);
    assert Added(r1.world, r2.world)[0] == r2.world.log[|r1.world.log|];
  }

  /** `e` on an engine that answers every call with an empty result set:
      begin exclusive, the statement not read-only, commit, and the
      statement's result set. */
  lemma EScenario(db: SQLiteAsyncDatabase.AsyncDb, sql: string, args: seq<Value>)
    ensures var r := E(Reentrant([Resolved(db)]), sql, args, World([Answers(NoRows), Answers(NoRows), Answers(NoRows)], []));
            && r.outcome == Resolved(NoRows)
            && |r.world.log| == 3
            && r.world.log[0].sub == ControlSub(db.conn, BeginExclusive)
            && r.world.log[1].sub == Submission(db.conn, [Query(sql, args)], false)
            && r.world.log[2].sub == ControlSub(db.conn, Commit)
  {
    var re := Reentrant([Resolved(db)]);
    var w := World([Answers(NoRows), Answers(NoRows), Answers(NoRows)], []);
    var r := E(re, sql, args, w);
    var body := OneStatementBody(sql, args, Whole);
    BracketConsumes(db.conn, BeginExclusive, None, body, w);
    assert r.world == Bracket(db.conn, BeginExclusive, None, body, w).world;
    assert Added(w, r.world) == r.world.log;
    assert RepliedAt(w, r.world, 0);
    if 1 < |r.world.log| {
      assert RepliedAt(w, r.world, 1);
    }
    if 2 < |r.world.log| {
      assert RepliedAt(w, r.world, 2);
    }
  }
}

=== FILE: sql_types.dfy ===
/** Shapes shared by every layer: the values bound to statements, the result
    sets the engine hands back, the queries submitted to it, and the three
    ways an awaited promise can end. */
module SqlTypes {

  datatype Option<+T> = None | Some(value: T)

  /** Identity of one open native database handle. */
  type ConnId = nat

  /** A dynamically typed scalar bound to a `?` placeholder or read from a column. */
  datatype Value = Null | Bool(b: bool) | Integer(i: int) | Real(r: real) | Text(s: string) | Blob(bytes: seq<bv8>)

  /** A row maps column names to values; the layer imposes no schema. */
  type Row = map<string, Value>

  /** The engine's per-statement success record. */
  datatype ResultSet = ResultSet(insertId: Option<int>, rowsAffected: int, rows: seq<Row>)

  /** Any rejection value: an engine error, a body's own error or the
      cardinality error thrown by the one-row helpers. */
  datatype Error = Error(message: string)

  /** One element of the batch handed to the engine's `exec`. */
  datatype Query = Query(sql: string, args: seq<Value>)

  /** One call of the engine's `exec(queries, readOnly, callback)`, tagged with
      the handle it was made on. */
  datatype Submission = Submission(conn: ConnId, queries: seq<Query>, readOnly: bool)

  /** How an awaited promise ends: resolved, rejected, or never settled. */
  datatype Outcome<+T> = Resolved(value: T) | Rejected(error: Error) | Pending {

    predicate Settled() {
      !Pending?
    }

    /** `promise.then(f)`: a resolution is transformed, a rejection or a
        promise that never settles is passed through. */
    function Map<U>(f: T -> U): (r: Outcome<U>)
      ensures r.Resolved? <==> Resolved?
      ensures r.Rejected? <==> Rejected?
      ensures Rejected? ==> r.error == error
      ensures Resolved? ==> r.value == f(value)
    {
      match this
      case Resolved(v) => Resolved(f(v))
      case Rejected(e) => Rejected(e)
      case Pending => Pending
    }

    /** `promise.then(f)` where `f` itself returns a promise. */
    function Then<U>(f: T -> Outcome<U>): (r: Outcome<U>)
      ensures !Resolved? ==> (r.Rejected? <==> Rejected?) && (r.Pending? <==> Pending?)
      ensures Rejected? ==> r.error == error
      ensures Resolved? ==> r == f(value)
    {
      match this
      case Resolved(v) => f(v)
      case Rejected(e) => Rejected(e)
      case Pending => Pending
    }
  }

  function Last<X>(s: seq<X>): X
    requires |s| > 0
  {
    s[|s| - 1]
  }
}

=== FILE: sqlite_async_database.dfy ===
/** `SQLiteAsyncDatabase`: one native handle shared by every transaction,
    with a mutex so that one transaction bracket is open at a time.

    The mutex is the `locked` flag. Execution is sequential: the only way it
    can still be held when a new call arrives is that an earlier transaction
    never settled, and then `acquire` waits forever. */
module SQLiteAsyncDatabase {
  import opened SqlTypes
  import opened Callback
  import opened AsyncSQLTransaction
  import opened Bracketing

  const BeginImmediate := "begin immediate transaction"

  datatype AsyncDb = AsyncDb(conn: ConnId, locked: bool)

  /** An outcome with the database and the world it leaves behind. */
  datatype DbRun<+T> = DbRun(outcome: Outcome<T>, db: AsyncDb, world: World)

  /** `new SQLiteAsyncDatabase(db)`: wraps the handle with a fresh, free mutex. */
  function NewAsyncDb(conn: ConnId): (db: AsyncDb)
    ensures db.conn == conn && !db.locked
  {
    AsyncDb(conn, false)
  }

  /** `executeSqlAsync`: the same one-query adapter as the transaction
      handle's, on this database's handle. It neither takes nor looks at the
      mutex, so it has no `AsyncDb` result. */
  function ExecuteSqlAsync(db: AsyncDb, sql: string, args: seq<Value> := [], readOnly: bool := false, w: World)
    : (r: Run<ResultSet>)
    ensures Extends(w, r.world)
    ensures Added(w, r.world) == [Event(Submission(db.conn, [Query(sql, args)], readOnly), r.outcome)]
    ensures r.outcome == Normalize(NextResponse(w))
    ensures Consumed(w, r.world)
  {
    SubmitConsumes(w, db.conn, sql, args, readOnly);
    Submit(w, db.conn, sql, args, readOnly)
  }

  /** `txn`/`rtxn`: acquire the mutex, run the bracket, release in `finally`.
      `finally` runs only once the bracket settles. */
  function Guarded<T>(db: AsyncDb, flag: Option<bool>, body: Body<T>, w: World): (r: DbRun<T>)
    ensures Extends(w, r.world)
    ensures r.db.conn == db.conn
    ensures db.locked ==> r == DbRun(Pending, db, w)
    ensures !db.locked ==> (r.db.locked <==> r.outcome.Pending?)
    ensures !db.locked ==> Run(r.outcome, r.world) == Bracket(db.conn, BeginImmediate, flag, body, w)
  {
    if db.locked then
      DbRun(Pending, db, w)
    else
      var held := db.(locked := true);
      var b := Bracket(db.conn, BeginImmediate, flag, body, w);
      DbRun(b.outcome, if b.outcome.Settled() then held.(locked := false) else held, b.world)
  }

  /** `txn`: with the mutex free, a bracket that begins with `begin immediate
      transaction` on a handle that is not read-only, keeping every promise
      of `Bracketed`; the mutex is free again exactly when it settles. With
      the mutex held, it waits and issues nothing. */
  function Txn<T>(db: AsyncDb, body: Body<T>, w: World): (r: DbRun<T>)
    ensures Extends(w, r.world)
    ensures r.db.conn == db.conn
    ensures db.locked ==> r == DbRun(Pending, db, w)
    ensures !db.locked ==> (r.db.locked <==> r.outcome.Pending?)
    ensures !db.locked ==>
              Bracketed(db.conn, BeginImmediate, Transaction(db.conn, false), body, Added(w, r.world), r.outcome)
    ensures !db.locked ==> Consumed(w, r.world)
  {
    BracketKeepsPromises(db.conn, BeginImmediate, None, body, w);
    Guarded(db, None, body, w)
  }

  /** `rtxn`: as `txn`, with the same `begin immediate transaction`, but on a
      read-only handle. */
  function Rtxn<T>(db: AsyncDb, body: Body<T>, w: World): (r: DbRun<T>)
    ensures Extends(w, r.world)
    ensures r.db.conn == db.conn
    ensures db.locked ==> r == DbRun(Pending, db, w)
    ensures !db.locked ==> (r.db.locked <==> r.outcome.Pending?)
    ensures !db.locked ==>
              Bracketed(db.conn, BeginImmediate, Transaction(db.conn, true), body, Added(w, r.world), r.outcome)
    ensures !db.locked ==> Consumed(w, r.world)
  {
    BracketKeepsPromises(db.conn, BeginImmediate, Some(true), body, w);
    Guarded(db, Some(true), body, w)
  }

  /** `e`: one statement, submitted not read-only, inside `txn`; a commit
      that resolves returns its result set. */
  function E(db: AsyncDb, sql: string, args: seq<Value>, w: World): (r: DbRun<ResultSet>)
    ensures Extends(w, r.world)
    ensures r.db.conn == db.conn
    ensures db.locked ==> r == DbRun(Pending, db, w)
    ensures !db.locked ==> (r.db.locked <==> r.outcome.Pending?)
    ensures !db.locked ==>
              OneStatement(db.conn, BeginImmediate, Submission(db.conn, [Query(sql, args)], false),
                           Added(w, r.world), r.outcome, Whole)
    ensures !db.locked ==> Consumed(w, r.world)
  {
    var r := Txn(db, OneStatementBody(sql, args, Whole), w);
    if db.locked then r
    else
      OneStatementBracketed(db.conn, BeginImmediate, Transaction(db.conn, false), sql, args, Whole,
                            Added(w, r.world), r.outcome);
      r
  }

  /** `q`: one statement, submitted read-only, inside `rtxn`; a commit that
      resolves returns the rows of its result set. */
  function Q(db: AsyncDb, sql: string, args: seq<Value>, w: World): (r: DbRun<seq<Row>>)
    ensures Extends(w, r.world)
    ensures r.db.conn == db.conn
    ensures db.locked ==> r == DbRun(Pending, db, w)
    ensures !db.locked ==> (r.db.locked <==> r.outcome.Pending?)
    ensures !db.locked ==>
              OneStatement(db.conn, BeginImmediate, Submission(db.conn, [Query(sql, args)], true),
                           Added(w, r.world), r.outcome, AllRows)
    ensures !db.locked ==> Consumed(w, r.world)
  {
    var t := Rtxn(db, OneStatementBody(sql, args, Whole), w);
    if db.locked then DbRun(t.outcome.Map(RowsIn), t.db, t.world)
    else
      OneStatementBracketed(db.conn, BeginImmediate, Transaction(db.conn, true), sql, args, Whole,
                            Added(w, t.world), t.outcome);
      OneStatementMap(db.conn, BeginImmediate, Submission(db.conn, [Query(sql, args)], true),
                      Added(w, t.world), t.outcome, Whole, RowsIn, AllRows);
      DbRun(t.outcome.Map(RowsIn), t.db, t.world)
  }

  /** `q1`: the cardinality rule runs inside the `rtxn` body, so more than one
      row rolls the transaction back before the error escapes. */
  function Q1(db: AsyncDb, sql: string, args: seq<Value>, w: World): (r: DbRun<Option<Row>>)
    ensures Extends(w, r.world)
    ensures r.db.conn == db.conn
    ensures db.locked ==> r == DbRun(Pending, db, w)
    ensures !db.locked ==> (r.db.locked <==> r.outcome.Pending?)
    ensures !db.locked ==>
              OneStatement(db.conn, BeginImmediate, Submission(db.conn, [Query(sql, args)], true),
                           Added(w, r.world), r.outcome, OneRow)
    ensures !db.locked ==> Consumed(w, r.world)
  {
    var r := Rtxn(db, OneStatementBody(sql, args, OneRow), w);
    if db.locked then r
    else
      OneStatementBracketed(db.conn, BeginImmediate, Transaction(db.conn, true), sql, args, OneRow,
                            Added(w, r.world), r.outcome);
      r
  }

  /** While an earlier transaction never settles its mutex stays held, and
      every later `txn` or `rtxn` waits without issuing anything. */
  lemma StalledTxnBlocksLaterTxns<T, U>(db: AsyncDb, first: Body<T>, second: Body<U>, w: World)
    requires !db.locked
    requires Txn(db, first, w).outcome.Pending?
    ensures var r1 := Txn(db, first, w);
            && Txn(r1.db, second, r1.world) == DbRun(Pending, r1.db, r1.world)
            && Rtxn(r1.db, second, r1.world) == DbRun(Pending, r1.db, r1.world)
  {
  }

  /** Once a transaction settles, either way, the next one gets the mutex and
      begins right after the earlier one's last call. */
  lemma SettledTxnFreesMutex<T, U>(db: AsyncDb, first: Body<T>, second: Body<U>, w: World)
    requires !db.locked
    requires Txn(db, first, w).outcome.Settled()
    ensures var r1 := Txn(db, first, w);
            var r2 := Txn(r1.db, second, r1.world);
            && !r1.db.locked
            && w.log <= r1.world.log <= r2.world.log
            && |r1.world.log| < |r2.world.log|
            && r2.world.log[|r1.world.log|].sub == ControlSub(db.conn, BeginImmediate)
  {
    var r1 := Txn(db, first, w);
    var r2 := Txn(r1.db, second, r1.world);
    assert Added(r1.world, r2.world)[0] == r2.world.log[|r1.world.log|];
  }

  /** The engine of the scenarios: begin answered with `NoRows`, then
      `second` for the statement, then `NoRows` for commit or rollback. */
  function Scripted(second: Response): World {
    World([Answers(NoRows), second, Answers(NoRows)], [])
  }

  /** The replies of the three calls a one-statement transaction can make
      on a `Scripted` engine. */
  lemma ScriptedReplies<U>(conn: ConnId, second: Response, sub: Submission, r: DbRun<U>,
                           answer: ResultSet -> Outcome<U>)
    requires Consumed(Scripted(second), r.world)
    requires OneStatement(conn, BeginImmediate, sub, r.world.log, r.outcome, answer)
    ensures r.world.log[0].reply == Resolved(NoRows)
    ensures r.world.log[1].reply == Normalize(second)
    ensures 2 < |r.world.log| ==> r.world.log[2].reply == Resolved(NoRows)
  {
    var w := Scripted(second);
    assert RepliedAt(w, r.world, 0);
    assert RepliedAt(w, r.world, 1);
    if 2 < |r.world.log| {
      assert RepliedAt(w, r.world, 2);
    }
  }

  /** `q` on an engine whose statement answers with `rows`: begin immediate,
      the statement read-only, commit, and exactly those rows. */
  lemma QScenario(conn: ConnId, sql: string, args: seq<Value>, rows: seq<Row>)
    ensures var r := Q(NewAsyncDb(conn), sql, args, Scripted(Answers(ResultSet(None, 0, rows))));
            && r.outcome == Resolved(rows)
            && |r.world.log| == 3
            && r.world.log[0].sub == ControlSub(conn, BeginImmediate)
            && r.world.log[1].sub == Submission(conn, [Query(sql, args)], true)
            && r.world.log[2].sub == ControlSub(conn, Commit)
            && !r.db.locked
  {
    var w := Scripted(Answers(ResultSet(None, 0, rows)));
    var r := Q(NewAsyncDb(conn), sql, args, w);
    BracketConsumes(conn, BeginImmediate, Some(true), OneStatementBody(sql, args, Whole), w);
    assert Added(w, r.world) == r.world.log;
    ScriptedReplies(conn, w.script[1], Submission(conn, [Query(sql, args)], true), r, AllRows);
  }

  /** `q` whose statement fails with `e`: the transaction is rolled back and
      `e` escapes. */
  lemma QFailScenario(conn: ConnId, sql: string, args: seq<Value>, e: Error)
    ensures var r := Q(NewAsyncDb(conn), sql, args, Scripted(Fails(e)));
            && r.outcome == Rejected(e)
            && |r.world.log| == 3
            && r.world.log[1].sub == Submission(conn, [Query(sql, args)], true)
            && r.world.log[2].sub == ControlSub(conn, Rollback)
            && !r.db.locked
  {
    var w := Scripted(Fails(e));
    var r := Q(NewAsyncDb(conn), sql, args, w);
    BracketConsumes(conn, BeginImmediate, Some(true), OneStatementBody(sql, args, Whole), w);
    assert Added(w, r.world) == r.world.log;
    ScriptedReplies(conn, w.script[1], Submission(conn, [Query(sql, args)], true), r, AllRows);
  }

  /** `q1` on an engine whose statement answers with `rows`: no row gives
      null and one row gives it, each followed by commit; more rows roll back
      and reject with the cardinality error. */
  lemma Q1Scenario(conn: ConnId, sql: string, args: seq<Value>, rows: seq<Row>)
    ensures var r := Q1(NewAsyncDb(conn), sql, args, Scripted(Answers(ResultSet(None, 0, rows))));
            && r.outcome == ExpectOne(rows)
            && |r.world.log| == 3
            && r.world.log[1].sub == Submission(conn, [Query(sql, args)], true)
            && r.world.log[2].sub == ControlSub(conn, if |rows| <= 1 then Commit else Rollback)
            && !r.db.locked
  {
    var w := Scripted(Answers(ResultSet(None, 0, rows)));
    var r := Q1(NewAsyncDb(conn), sql, args, w);
    BracketConsumes(conn, BeginImmediate, Some(true), OneStatementBody(sql, args, OneRow), w);
    assert Added(w, r.world) == r.world.log;
    ScriptedReplies(conn, w.script[1], Submission(conn, [Query(sql, args)], true), r, OneRow);
  }
}
